=== FILE: README.md ===
# TextDecoder in Dafny

A model of the `TextDecoder` class of `abstract.py`. The class guesses how a
piece of text was encoded and decodes it. It has six detectors, each of which
takes a string and returns either "no match" or a `(label, decoded)` pair:

- Base64
- hexadecimal
- 8-bit binary groups
- URL percent-encoding
- ROT13
- Morse code

The dispatcher `detect_encoding` tries the detectors in a fixed order and
returns the first match, or `("Unknown", text)` when none matches.

Each detector is a pure function returning `Option<Detection>`. The library
codecs the detectors rely on are written out concretely, one module each:

- `Utf8`: strict and replacing UTF-8 decoding, and encoding (RFC 3629).
- `Base64Codec`: Base64 from section 4 of RFC 4648.
- `Base16`: hexadecimal from section 8 of RFC 4648.
- `Bits`: `int(g, 2)` and 8-digit groups.
- `Percent`: `urllib.parse.unquote`, section 2.1 of RFC 3986.
- `Rot13Cipher`: the translation table.
- `MorseCode`: the Morse table, `split(' ')` and the join.

Each codec has a partner: an encoder that inverts the decoder. Each detector
has a soundness lemma stating what a match guarantees, and a round-trip
lemma from that encoder. The dispatcher is `FirstMatch` over the list of the
six detector results. It is proved to return the first match and to fall
back to `Unknown` with the text unchanged.

The module `Scenarios` carries worked inputs through the detectors and the
dispatcher: the usual spellings of "Hello" in each of the six encodings, a
plain sentence, and two Base64 quads that differ only in their pad bits.
These known answers tie each codec to its standard: the bit order of
`int(g, 2)`, the nibble order of hex, and the alphabet and padding of
Base64.

Where the code and a natural expectation of the class part ways, the model
follows the code:

- A binary input such as `01001000 01100101 01101100 01101100 01101111`
  would be expected to be reported as Binary. The code reports it as Hex:
  Base64 rejects it because of the spaces, and Hex accepts it before Binary
  is tried (see Findings).
- A round trip "encode, then detect" cannot hold for the empty string,
  because every detector rejects it:
  - Base64, Hex and Binary use regular expressions with `+`, which need at
    least one character (abstract.py:13, 30, 44).
  - URL rejects it because it has no `%` (abstract.py:62).
  - ROT13 rejects it because `''.isalpha()` is false (abstract.py:76).
  - Morse's character test accepts it (abstract.py:102). Its only piece is
    `''`, which decodes to nothing, so the `len(decoded) > 0` test rejects it
    (abstract.py:110).

  The empty input is therefore `Unknown`, and the round-trip lemmas require
  a non-empty text.

## Model

| member | source | states |
|---|---|---|
| TextDecoder.DetectBase64 | abstract.py:9-24 | Its own contract fixes only the label: a match is labelled Base64. What a match guarantees is in `DetectBase64Sound`, `DetectBase64Exactly` and `DetectBase64OfEncoding`. |
| TextDecoder.MatchesBase64Class | abstract.py:13 | The class test passes exactly when the text is non-empty, every character but the last is in `[A-Za-z0-9+/=]`, and the last is too or is a newline after at least one other character. |
| TextDecoder.DetectBase64Sound | abstract.py:9-24 | A match needs a non-empty input, a length divisible by 4 and only `[A-Za-z0-9+/=]`. Re-encoding the UTF-8 bytes of the decoded text reproduces the input exactly. |
| TextDecoder.DetectBase64Exactly | abstract.py:13-21 | The Base64 detector matches with result `t` exactly when `t` is non-empty and the input is the Base64 encoding of the UTF-8 bytes of `t`. It holds in both directions. |
| TextDecoder.DetectBase64OfEncoding | abstract.py:13-21 | For any non-empty text, the Base64 detector decodes the Base64 encoding of its UTF-8 bytes back to it. |
| TextDecoder.DetectHex | abstract.py:27-38 | Its own contract fixes only the label: a match is labelled Hex. What a match guarantees is in `DetectHexSound` and `DetectHexOfEncoding`. |
| TextDecoder.HexClean | abstract.py:29 | The cleaned text holds exactly the characters of the lower-cased input other than spaces and colons, each as often as there. It is no longer than the input and holds no upper-case letter, space or colon. A text that already has none of them is left unchanged. |
| TextDecoder.DetectHexSound | abstract.py:27-38 | A match needs a cleaned text that is non-empty, of even length and only `[0-9a-f]`. Cleaning lower-cases and drops spaces and colons. The decoded text's UTF-8 bytes number half the cleaned length and spell the cleaned text in lower-case hex. |
| TextDecoder.DetectHexOfEncoding | abstract.py:29-36 | For any non-empty text, the hex detector decodes the lower-case hex spelling of its UTF-8 bytes back to it. |
| TextDecoder.DetectBinary | abstract.py:41-57 | Its own contract fixes only the label: a match is labelled Binary. What a match guarantees is in `DetectBinarySound` and `DetectBinaryOfEncoding`. |
| TextDecoder.DetectBinarySound | abstract.py:41-57 | A match needs the space-stripped text to be a non-empty run of `0`/`1` whose length is divisible by 8. The decoded text has one character per group, each below 256 and either at least 32 or one of newline, carriage return and tab. Its 8-digit groups give back the stripped text. |
| TextDecoder.DetectBinaryOfEncoding | abstract.py:43-55 | For any non-empty readable text below code point 256, the binary detector decodes its 8-digit groups back to it. |
| TextDecoder.DetectUrl | abstract.py:60-71 | Its own contract fixes only the label: a match is labelled URL Encoding. What a match guarantees is in `DetectUrlSound` and `DetectUrlOfEncoding`. |
| TextDecoder.DetectUrlSound | abstract.py:60-71 | A match needs a `%` in the input. The decoded text is the percent-decoding of the input. It differs from the input, is shorter than it and has no code point below 32. |
| TextDecoder.DetectUrlOfEncoding | abstract.py:62-68 | For any non-empty text without control characters, the URL detector decodes its full percent-encoding back to it. |
| TextDecoder.DetectRot13 | abstract.py:74-85 | Its own contract fixes only the label: a match is labelled ROT13. When it matches is in `DetectRot13Sound`, and the round trip is in `DetectRot13OfEncoding`. |
| TextDecoder.DetectRot13Sound | abstract.py:74-85 | The detector matches exactly when the input is non-empty and all letters. The result has the same length, differs from the input, and rotates back to the input. |
| TextDecoder.DetectRot13OfEncoding | abstract.py:76-84 | For any non-empty run of letters, the ROT13 detector decodes its rotation back to it. |
| TextDecoder.DetectMorse | abstract.py:88-114 | Its own contract fixes only the label: a match is labelled Morse. What a match guarantees is in `DetectMorseSound` and `DetectMorseOfEncoding`. |
| TextDecoder.DetectMorseSound | abstract.py:88-114 | A match needs the input to use only `.`, `-`, space and `/`. The result is the concatenation of the table lookups of the space-separated tokens. It is non-empty, contains a letter or digit, and holds only characters the table produces. It has at most one character per token. |
| TextDecoder.DetectMorseOfEncoding | abstract.py:102-111 | For any text over the table's characters that contains a letter or digit, the Morse detector decodes its Morse encoding back to it. |
| TextDecoder.SourceResults | abstract.py:119-129 | Six results, one per detector. Each match is labelled with the encoding at its position in the order Base64, Hex, Binary, URL, ROT13, Morse. |
| TextDecoder.FirstMatch | abstract.py:128-133 | The loop's result is either `Unknown` with the text unchanged or one of the matches in the list. Which match it is is stated in `FirstMatchSound` and `FirstMatchAt`. |
| TextDecoder.FirstMatchSound | abstract.py:128-133 | Over any list of detector results, the loop returns `Unknown` with the input unchanged when nothing matches. Otherwise it returns some match all of whose predecessors failed. |
| TextDecoder.FirstMatchAt | abstract.py:128-131 | When a result matches and every result before it failed, the loop returns that match. |
| TextDecoder.DetectEncoding | abstract.py:117-133 | The result is `Unknown` exactly when all six detectors fail, and it then carries the input unchanged. Otherwise it is one of the detectors' own matches. Its label is one of the seven strings the source uses. |
| TextDecoder.Priority | abstract.py:119-131 | `detect_encoding` returns the match of the first detector that matches, in the order Base64, Hex, Binary, URL, ROT13, Morse. |
| TextDecoder.HexWinsOverLater | abstract.py:119-131 | When Base64 fails and Hex matches, the result is the hex match. The later detectors are never consulted. |
| TextDecoder.BinaryImpliesHex | abstract.py:29-36 | Every text the binary detector accepts is accepted by the hex detector too. |
| TextDecoder.BinaryNeverReported | abstract.py:119-131 | As written, `detect_encoding` never reports Binary. |
| TextDecoder.BinaryShadowed | abstract.py:43-55 | The 8-digit groups of any readable text are a Binary match, yet `detect_encoding` does not report Binary for them. |
| TextDecoder.CorrectedResults | abstract.py:119-129 | The same six results with Binary moved before Hex. Each match is labelled with the encoding at its position in that order. |
| TextDecoder.DetectEncodingCorrected | abstract.py:117-133 | With Binary tried before Hex, the result is still `Unknown` exactly when all six detectors fail, with the input unchanged. Otherwise it is one of the detectors' own matches. |
| TextDecoder.CorrectedReportsBinary | abstract.py:119-131 | With the corrected order, a binary match that is not Base64 is reported as Binary. |
| TextDecoder.CorrectedAgreesElsewhere | abstract.py:119-131 | With the corrected order, every text the binary detector rejects gets the same result as before. |
| Base64Codec.Encode | abstract.py:20 | The encoding has `4 * ceil(n / 3)` characters, all from `[A-Za-z0-9+/=]`. Only the last four may be padding. |
| Base64Codec.EncodeOne | abstract.py:20 | A final single byte becomes two alphabet characters and `==`. The second character's value is a multiple of 16, so the four bits `b64encode` adds are zero. |
| Base64Codec.EncodeTwo | abstract.py:20 | A final pair of bytes becomes three alphabet characters and `=`. The third character's value is a multiple of 4, so the two bits `b64encode` adds are zero. |
| Base64Codec.EncodePadBits | abstract.py:20 | For any byte string, the encoding has no padding when its length is divisible by 3. Otherwise the character just before the padding has zero unused bits: its value is a multiple of 16 before `==` and a multiple of 4 before `=`. |
| Base64Codec.Rfc4648Vectors | abstract.py:20 | The encoder gives the test vectors of section 10 of RFC 4648, from `""` to `"Zm9vYmFy"` for the prefixes of `foobar`. |
| Base64Codec.Decode | abstract.py:16 | A strict decode succeeds only on a length divisible by 4 and only on characters from `[A-Za-z0-9+/=]`. The input length is `4 * ceil(n / 3)` for the `n` decoded bytes. |
| Base64Codec.DecodeEncode | abstract.py:16-20 | Decoding the Base64 encoding of any byte string gives it back. |
| Base16.Decode | abstract.py:34 | Hex decoding succeeds exactly on an even-length run of hex digits. It yields half as many bytes as digits. |
| Base16.DecodeDigits | abstract.py:34 | Byte `k` of a successful decode is 16 times the value of digit `2k` plus the value of digit `2k+1`, so the high nibble comes first. |
| Base16.EncodeDigits | abstract.py:34 | Digit `2k` of the spelling is the high nibble of byte `k`, and digit `2k+1` is its low nibble. |
| Base16.DecodeOfHello | abstract.py:34 | `unhexlify("48656c6c6f")` gives the bytes 0x48 0x65 0x6c 0x6c 0x6f. |
| Base16.DecodeEncode | abstract.py:34 | Decoding the lower-case hex spelling of any byte string gives it back. |
| Base16.EncodeDecode | abstract.py:34 | Spelling the decoded bytes in hex gives the lower-cased input back. |
| Utf8.Decode | abstract.py:17 | Strict decoding, used by the Base64 detector here and by the hex detector at abstract.py:35, yields at most one character per byte. The lemmas `DecodeEncode` and `EncodeDecode` pin it down as the inverse of RFC 3629 encoding. |
| Utf8.DecodeLossy | abstract.py:66 | Replacing decoding yields at most one character per byte. `LossyAgreesWhenValid` ties it to strict decoding. |
| Utf8.DecodeEncode | abstract.py:17 | Strictly decoding the UTF-8 encoding of any text gives it back. |
| Utf8.EncodeDecode | abstract.py:17 | Whenever strict decoding succeeds, encoding the result gives the bytes back. |
| Utf8.LossyAgreesWhenValid | abstract.py:66 | On valid UTF-8, replacing decoding agrees with strict decoding. |
| Utf8.DecodeAscii | abstract.py:35 | Bytes below 0x80 decode one-for-one to the characters with those code points. |
| Ascii.Lower | abstract.py:29 | ASCII `lower()` keeps the length and lower-cases each character in place. |
| Ascii.Remove | abstract.py:29 | `replace(x, '')`, used here and by the binary detector at abstract.py:43, keeps every character other than `x` as often as it occurs and drops every `x`. It is no longer than the input and leaves a text without `x` unchanged. |
| Ascii.RemoveAppend | abstract.py:29 | Removing `x` from a concatenation removes it from each part, so the characters that stay keep their order. |
| Bits.ParseBinary | abstract.py:49 | `int(g, 2)` of `len(g)` binary digits is below 2^len(g), so an 8-digit group names a code point below 256. |
| Bits.ParseBinaryLeading | abstract.py:49 | A leading `1` in front of `n` binary digits adds 2^n, and a leading `0` adds nothing, so `int(g, 2)` reads the most significant digit first. |
| Bits.ParseBinaryOfH | abstract.py:49 | `int("01001000", 2)` is 72. |
| Bits.ParseToBinary | abstract.py:49 | `int(g, 2)` reads back any numeral written with `n` binary digits. |
| Bits.ToBinaryParse | abstract.py:49 | Writing `int(g, 2)` with `len(g)` digits gives `g` back. |
| Bits.DecodeGroups | abstract.py:48-51 | One character per 8 digits, each below 256. |
| Bits.DecodeEncodeGroups | abstract.py:48-51 | Decoding the 8-digit groups of a text below code point 256 gives it back. |
| Bits.EncodeDecodeGroups | abstract.py:48-51 | Writing each decoded character as 8 digits gives the digit string back. |
| Percent.Unquote | abstract.py:66 | `unquote` is no longer than its input. Without a `%XX` escape it leaves the text unchanged. With one, the text loses at least two characters. |
| Percent.UnquoteFrom | abstract.py:66 | Decoding the rest of a text after a run of pending escaped bytes yields at most one character per pending byte or input character. |
| Percent.UnquoteWithoutPercent | abstract.py:66 | A text without `%` is left unchanged, which is the shortcut `unquote` takes before decoding anything. |
| Percent.UnquoteWithoutEscape | abstract.py:66 | A text without a `%XX` escape is left unchanged. |
| Percent.UnquoteShortens | abstract.py:66-67 | A text that decoding changes becomes strictly shorter. |
| Percent.QuoteRoundTrip | abstract.py:66 | Decoding the full percent-encoding of the UTF-8 bytes of any text gives the text back. |
| Rot13Cipher.RotChar | abstract.py:79-81 | The table keeps each letter's case, changes every letter, and leaves every other character alone. |
| Rot13Cipher.Rotate | abstract.py:79-81 | Rotating a letter's alphabet position by 13 modulo 26 always changes it and stays within the alphabet. |
| Rot13Cipher.MatchesTableUpperFirstHalf | abstract.py:80-81 | `A`-`M` go to `N`-`Z`, position by position, as in the translation table. |
| Rot13Cipher.MatchesTableUpperSecondHalf | abstract.py:80-81 | `N`-`Z` go to `A`-`M`, position by position, as in the translation table. |
| Rot13Cipher.MatchesTableLowerFirstHalf | abstract.py:80-81 | `a`-`m` go to `n`-`z`, position by position, as in the translation table. |
| Rot13Cipher.MatchesTableLowerSecondHalf | abstract.py:80-81 | `n`-`z` go to `a`-`m`, position by position, as in the translation table. |
| Rot13Cipher.Translate | abstract.py:79-81 | The translation has the input's length and applies the character table at every position. |
| Rot13Cipher.Involution | abstract.py:79-81 | Translating twice is the identity. |
| Rot13Cipher.LettersChange | abstract.py:83 | A non-empty run of letters always changes. |
| MorseCode.Lookup | abstract.py:107 | A lookup gives at most one character, from A-Z, 0-9 or space. A token outside the table gives the empty string. |
| MorseCode.DecodeTokens | abstract.py:106-109 | The join of the lookups has at most one character per token, and only characters the table produces. |
| MorseCode.Decode | abstract.py:106-109 | The decoding holds only characters the table produces: A-Z, 0-9 and space. |
| MorseCode.Split | abstract.py:108 | `split(' ')` yields at least one piece, and no piece contains a space. |
| MorseCode.JoinSplit | abstract.py:108 | Joining the pieces of `split(' ')` with single spaces gives the text back. |
| MorseCode.SplitJoin | abstract.py:108 | Splitting a single-space join of space-free tokens gives the tokens back. |
| MorseCode.DecodeEncode | abstract.py:90-109 | Decoding the Morse encoding of any text over the table's characters gives the text back. |
| MorseCode.EncodeMorseChars | abstract.py:102 | A Morse encoding uses only `.`, `-`, space and `/`. |
| TextDecoder.SixSkipThree | abstract.py:128-131 | When the first three of six results fail, the loop gives what it gives on the last three alone. |
| Scenarios.Base64NeedsLength | abstract.py:13-14 | A length not divisible by 4 is never Base64. |
| Scenarios.Base64NeedsClass | abstract.py:13-14 | A character outside `[A-Za-z0-9+/=]` anywhere but at the end is never Base64. |
| Scenarios.HexNeedsDigits | abstract.py:29-31 | A character that is no hex digit, space or colon makes the hex detector fail. |
| Scenarios.BinaryNeedsBits | abstract.py:43-45 | A character that is no `0`, `1` or space makes the binary detector fail. |
| Scenarios.Rot13NeedsLetters | abstract.py:76-77 | A character that is no letter makes the ROT13 detector fail. |
| Scenarios.MorseNeedsMorseChars | abstract.py:102-103 | A character other than `.`, `-`, space and `/` makes the Morse detector fail. |
| Scenarios.UrlReported | abstract.py:119-131 | When Base64, Hex and Binary fail and URL matches, the URL match is reported. |
| Scenarios.Rot13Reported | abstract.py:119-131 | When the first four detectors fail and ROT13 matches, the ROT13 match is reported. |
| Scenarios.MorseReported | abstract.py:119-131 | When the first five detectors fail and Morse matches, the Morse match is reported. |
| Scenarios.Base64OfHello | abstract.py:13-21 | `"SGVsbG8="` is reported as Base64 `"Hello"`. |
| Scenarios.Base64RejectsPadBits | abstract.py:16-21 | A final quad whose bits before `=` are not zero is rejected by the re-encoding check, whatever its other characters. |
| Scenarios.Base64PadBitsOfA | abstract.py:16-21 | `"QQ=="` is Base64 `"A"`. `"QR=="` decodes to the same byte, yet the detector rejects it because its pad bits are set. |
| Scenarios.HexOfHello | abstract.py:27-36 | `"48656c6c6f"` is reported as Hex `"Hello"`. |
| Scenarios.BinaryOfHello | abstract.py:43-55 | The binary detector reads `01001000 01100101 01101100 01101100 01101111` as `"Hello"`. |
| Scenarios.BinaryOfHelloReported | abstract.py:119-131 | `detect_encoding` nevertheless reports that input as Hex. |
| Scenarios.BinaryOfHelloCorrected | abstract.py:119-131 | With Binary tried before Hex, that input is reported as Binary `"Hello"`. |
| Scenarios.UnquoteOfSpace | abstract.py:66 | `unquote` turns a `%20` between two texts without `%` into a space and leaves the rest alone. |
| Scenarios.UrlOfSpace | abstract.py:60-68 | A `%20` between two texts without `%` is a URL match for the text with a space, when that text has no control character. |
| Scenarios.UrlOfHello | abstract.py:60-68 | `"Hello%20World"` is reported as URL Encoding `"Hello World"`. |
| Scenarios.Rot13OfHello | abstract.py:74-84 | `"Uryyb"` is reported as ROT13 `"Hello"`. |
| Scenarios.MorseOfHello | abstract.py:88-111 | `.... . .-.. .-.. ---` is reported as Morse `"HELLO"`. |
| Scenarios.PlainText | abstract.py:117-133 | `"just plain text"` matches no detector and is reported as Unknown, unchanged. |

## Left out

- Texts are sequences of Unicode scalar values: a Dafny `char` cannot be a lone surrogate, while a Python `str` can hold one. `unquote` passes such characters through, so `detect_url_encoding` matches inputs like `"%41\udc80"` → `"A\udc80"` (abstract.py:66-68). Inputs holding lone surrogates lie outside the model.
- `main` (abstract.py:135-162) is the interactive stdin/stdout loop, so it is not modelled.
- Exceptions are not modelled. Every `try`/`except` failure path is `None`.
- Regular expressions are replaced by explicit character-class predicates. The `$` anchor of `re.match` also matches before a final newline, and `MatchesBase64Class` keeps that rule.
- `str.lower`, `str.isalpha` and `str.isalnum` are modelled on ASCII only. Python's Unicode versions also accept or map non-ASCII letters.
- TextDecoder.DetectRot13Sound: does not cover non-ASCII letters. `isalpha` accepts them and the table leaves them alone. A word of only non-ASCII letters is still rejected, by the source's `rot13 != text` test. The source accepts a word mixing ASCII and non-ASCII letters (e.g. `Héllo` → `Uéyyb`), but the model rejects it at the letter test.
- The Morse detector's alphanumeric test is ASCII. This is exact, because the table only produces A-Z, 0-9 and space.
- The Morse table entry for a lone space is kept but can never be reached. `split(' ')` never yields a piece containing a space.
- The Base64 decoder ignores the unused low bits before `=`, as the library does. The re-encoding guard still rejects such non-canonical inputs: `Base64Codec.EncodePadBits` shows that an encoding never sets them, and `Scenarios.Base64RejectsPadBits` shows that the detector rejects a final quad that does.
- `unquote` is modelled for its UTF-8 `errors='replace'` behaviour. The `encoding` and `errors` arguments are fixed at their defaults.

## Findings

| source | as written | input that shows it | evidently intended | confidence | as-written member | corrected member |
|---|---|---|---|---|---|---|
| abstract.py:119-126 | Hex is tried before Binary. Every string the binary detector accepts is a run of `0`/`1` of even length without upper-case letters or colons. Its hex bytes are 0x00, 0x01, 0x10 or 0x11, which are ASCII and so valid UTF-8. The hex detector therefore always matches first, and Binary is never reported. | `01001000 01100101 01101100 01101100 01101111` is reported as Hex, not as Binary "Hello" | Binary input reported as Binary. Trying Binary before Hex gives that, because binary digits are the narrower class. | high, not executed | TextDecoder.BinaryNeverReported | TextDecoder.CorrectedReportsBinary |

=== FILE: ascii.dfy ===
/** Byte and ASCII character helpers shared by the codecs.

    Python's `str.lower`, `str.isalpha` and `str.isalnum` consult the Unicode
    database; this model restricts them to ASCII (see README). */
module Ascii {

  /** An octet, as an element of Python's `bytes`. */
  type byte = x: int | 0 <= x < 0x100

  predicate IsUpper(c: char) { 'A' <= c <= 'Z' }

  predicate IsLower(c: char) { 'a' <= c <= 'z' }

  /** ASCII restriction of `str.isalpha` on one character. */
  predicate IsLetter(c: char) { IsUpper(c) || IsLower(c) }

  predicate IsDigit(c: char) { '0' <= c <= '9' }

  /** ASCII restriction of `str.isalnum` on one character. */
  predicate IsAlnum(c: char) { IsLetter(c) || IsDigit(c) }

  /** A hexadecimal digit of either case, as `binascii.unhexlify` and
      percent-decoding accept them. */
  predicate IsHexDigit(c: char) {
    IsDigit(c) || 'a' <= c <= 'f' || 'A' <= c <= 'F'
  }

  /** A lower-case hexadecimal digit: the class `[0-9a-f]`. */
  predicate IsLowerHexDigit(c: char) { IsDigit(c) || 'a' <= c <= 'f' }

  /** The value 0..15 of a hexadecimal digit. */
  function HexValue(c: char): (v: int)
    requires IsHexDigit(c)
    ensures 0 <= v < 16
  {
    if IsDigit(c) then c as int - '0' as int
    else if 'a' <= c <= 'f' then c as int - 'a' as int + 10
    else c as int - 'A' as int + 10
  }

  /** The lower-case hexadecimal digit of a value 0..15. */
  function HexDigit(v: int): (c: char)
    requires 0 <= v < 16
    ensures IsLowerHexDigit(c) && HexValue(c) == v
  {
    if v < 10 then ('0' as int + v) as char else ('a' as int + v - 10) as char
  }

  /** Writing back the value of a digit gives the digit in lower case. */
  lemma HexDigitOfValue(c: char)
    requires IsHexDigit(c)
    ensures HexDigit(HexValue(c)) == ToLower(c)
  {
  }

  /** ASCII restriction of `str.lower` on one character. */
  function ToLower(c: char): (r: char)
    ensures IsUpper(c) ==> r as int == c as int + 32
    ensures !IsUpper(c) ==> r == c
  {
    if IsUpper(c) then (c as int + 32) as char else c
  }

  /** ASCII restriction of `str.lower`. */
  function Lower(s: string): (r: string)
    ensures |r| == |s|
    ensures forall i | 0 <= i < |s| :: r[i] == ToLower(s[i])
  {
    seq(|s|, i requires 0 <= i < |s| => ToLower(s[i]))
  }

  /** `s.replace(x, '')`: every occurrence of `x` removed, the rest in order. */
  function Remove(s: string, x: char): (r: string)
    ensures forall c :: c in r <==> c in s && c != x
    ensures multiset(r) == multiset(s)[x := 0]
    ensures |r| <= |s|
    ensures x !in s ==> r == s
  {
    if |s| == 0 then []
    else
      assert s == [s[0]] + s[1..];
      assert multiset(s) == multiset{s[0]} + multiset(s[1..]);
      if s[0] == x then Remove(s[1..], x) else [s[0]] + Remove(s[1..], x)
  }

  /** Removal works piecewise, so the characters that stay keep their
      order. */
  lemma {:induction false} RemoveAppend(a: string, b: string, x: char)
    ensures Remove(a + b, x) == Remove(a, x) + Remove(b, x)
    decreases |a|
  {
    if |a| > 0 {
      assert (a + b)[0] == a[0] && (a + b)[1..] == a[1..] + b;
      RemoveAppend(a[1..], b, x);
    } else {
      assert a + b == b;
    }
  }
}

=== FILE: base16.dfy ===
/** Base16 as in section 8 of RFC 4648: `binascii.unhexlify` and its
    partner `binascii.hexlify`, which writes lower-case digits. */
module Base16 {
  import opened Ascii
  import opened Wrappers

  /** `binascii.unhexlify`: each pair of digits (either case) becomes one
      byte, high nibble first; None where the library raises
      `binascii.Error` (odd length or a non-hexadecimal character). */
  function Decode(s: string): (r: Option<seq<byte>>)
    ensures r.Some? <==> |s| % 2 == 0 && forall i | 0 <= i < |s| :: IsHexDigit(s[i])
    ensures r.Some? ==> 2 * |r.value| == |s|
    decreases |s|
  {
    if |s| == 0 then Some([])
    else if |s| == 1 || !IsHexDigit(s[0]) || !IsHexDigit(s[1]) then None
    else
      match Decode(s[2..])
      case None => None
      case Some(rest) => Some([HexValue(s[0]) * 16 + HexValue(s[1])] + rest)
  }

  /** `binascii.hexlify(...).decode()`: two lower-case digits per byte. */
  function Encode(b: seq<byte>): (s: string)
    ensures |s| == 2 * |b|
    ensures forall i | 0 <= i < |s| :: IsLowerHexDigit(s[i])
  {
    if |b| == 0 then [] else [HexDigit(b[0] / 16), HexDigit(b[0] % 16)] + Encode(b[1..])
  }

  /** Round trip: decoding the encoding of any byte string gives it back. */
  lemma {:induction false} DecodeEncode(b: seq<byte>)
    ensures Decode(Encode(b)) == Some(b)
  {
    if |b| > 0 {
      var s := Encode(b);
      assert s[2..] == Encode(b[1..]);
      DecodeEncode(b[1..]);
      assert b == [b[0]] + b[1..];
    }
  }

  /** Round trip the other way: decodable text is, up to letter case, the
      encoding of the bytes it decodes to. */
  lemma {:induction false} EncodeDecode(s: string)
    requires Decode(s).Some?
    ensures Encode(Decode(s).value) == Lower(s)
    decreases |s|
  {
    if |s| > 0 {
      var rest := Decode(s[2..]).value;
      var x := HexValue(s[0]) * 16 + HexValue(s[1]);
      assert Decode(s).value == [x] + rest;
      assert x / 16 == HexValue(s[0]) && x % 16 == HexValue(s[1]);
      HexDigitOfValue(s[0]);
      HexDigitOfValue(s[1]);
      calc {
        Encode(Decode(s).value);
        [HexDigit(x / 16), HexDigit(x % 16)] + Encode(rest);
        { EncodeDecode(s[2..]); }
        [ToLower(s[0]), ToLower(s[1])] + Lower(s[2..]);
        { LowerSplit(s); }
        Lower(s);
      }
    }
  }

  lemma LowerSplit(s: string)
    requires |s| >= 2
    ensures Lower(s) == [ToLower(s[0]), ToLower(s[1])] + Lower(s[2..])
  {
  }


  /** Pairs of the digits 0 and 1 decode to bytes below 0x80 (in fact to
      0x00, 0x01, 0x10 and 0x11). */
  lemma {:induction false} DecodeBinaryDigits(s: string)
    requires Decode(s).Some?
    requires forall i | 0 <= i < |s| :: s[i] == '0' || s[i] == '1'
    ensures forall k | 0 <= k < |Decode(s).value| :: Decode(s).value[k] < 0x80
    decreases |s|
  {
    if |s| > 0 {
      DecodeBinaryDigits(s[2..]);
      assert HexValue(s[0]) <= 1 && HexValue(s[1]) <= 1;
    }
  }

  /** High nibble first: byte `k` is the value of digits `2k` and `2k + 1`
      read as a two-digit hexadecimal number. */
  lemma {:induction false} DecodeDigits(s: string)
    requires Decode(s).Some?
    ensures forall k | 0 <= k < |Decode(s).value| ::
              Decode(s).value[k] == HexValue(s[2 * k]) * 16 + HexValue(s[2 * k + 1])
    decreases |s|
  {
    if |s| > 0 {
      var b, rest := Decode(s).value, Decode(s[2..]).value;
      DecodeDigits(s[2..]);
      forall k | 1 <= k < |b|
        ensures b[k] == HexValue(s[2 * k]) * 16 + HexValue(s[2 * k + 1])
      {
        assert b[k] == rest[k - 1];
        assert s[2 * k] == s[2..][2 * (k - 1)] && s[2 * k + 1] == s[2..][2 * (k - 1) + 1];
      }
    }
  }

  /** High nibble first: byte `k` is written as digits `2k` and `2k + 1`. */
  lemma {:induction false} EncodeDigits(b: seq<byte>)
    ensures var s := Encode(b);
      forall k | 0 <= k < |b| :: s[2 * k] == HexDigit(b[k] / 16) && s[2 * k + 1] == HexDigit(b[k] % 16)
    decreases |b|
  {
    if |b| > 0 {
      var s, rest := Encode(b), Encode(b[1..]);
      EncodeDigits(b[1..]);
      forall k | 1 <= k < |b|
        ensures s[2 * k] == HexDigit(b[k] / 16) && s[2 * k + 1] == HexDigit(b[k] % 16)
      {
        assert b[k] == b[1..][k - 1];
        assert s[2 * k] == rest[2 * (k - 1)] && s[2 * k + 1] == rest[2 * (k - 1) + 1];
      }
    }
  }

  /** The hex spelling of "Hello". */
  lemma DecodeOfHello()
    ensures Decode("48656c6c6f") == Some([0x48, 0x65, 0x6c, 0x6c, 0x6f])
  {
    var b: seq<byte> := [0x48, 0x65, 0x6c, 0x6c, 0x6f];
    assert Encode(b[4..]) == "6f";
    assert Encode(b[3..]) == "6c6f";
    assert Encode(b[2..]) == "6c6c6f";
    assert Encode(b[1..]) == "656c6c6f";
    assert Encode(b) == "48656c6c6f";
    DecodeEncode(b);
  }
}

=== FILE: base64.dfy ===
/** Base64 as in section 4 of RFC 4648: `base64.b64encode` and
    `base64.b64decode(..., validate=True)`. */
module Base64Codec {
  import opened Ascii
  import opened Wrappers

  /** The 64-character alphabet of section 4 of RFC 4648, `[A-Za-z0-9+/]`. */
  predicate IsAlphabetChar(c: char) {
    IsUpper(c) || IsLower(c) || IsDigit(c) || c == '+' || c == '/'
  }

  /** The character class `[A-Za-z0-9+/=]`: the alphabet plus the pad. */
  predicate IsBase64Char(c: char) { IsAlphabetChar(c) || c == '=' }

  /** The 6-bit value an alphabet character stands for. */
  function ValueOf(c: char): (v: int)
    requires IsAlphabetChar(c)
    ensures 0 <= v < 64
  {
    if IsUpper(c) then c as int - 'A' as int
    else if IsLower(c) then c as int - 'a' as int + 26
    else if IsDigit(c) then c as int - '0' as int + 52
    else if c == '+' then 62
    else 63
  }

  /** The alphabet character for a 6-bit value. */
  function CharOf(v: int): (c: char)
    requires 0 <= v < 64
    ensures IsAlphabetChar(c) && ValueOf(c) == v
  {
    if v < 26 then ('A' as int + v) as char
    else if v < 52 then ('a' as int + v - 26) as char
    else if v < 62 then ('0' as int + v - 52) as char
    else if v == 62 then '+'
    else '/'
  }

  /** `base64.b64encode`: each group of three bytes becomes four
      characters; a final group of one or two bytes is padded with `=`,
      the unused low bits of its last character being zero. */
  function Encode(b: seq<byte>): (s: string)
    ensures |s| == (|b| + 2) / 3 * 4
    ensures forall i | 0 <= i < |s| :: IsBase64Char(s[i])
    ensures forall i | 0 <= i < |s| - 4 :: IsAlphabetChar(s[i])
    decreases |b|
  {
    if |b| == 0 then []
    else if |b| == 1 then EncodeOne(b[0])
    else if |b| == 2 then EncodeTwo(b[0], b[1])
    else
      var rest := Encode(b[3..]);
      assert (|b| + 2) / 3 * 4 == |rest| + 4 by {
        GroupCount(|b|);
      }
      EncodeGroup(b[0], b[1], b[2]) + rest
  }

  /** Each further group of three bytes adds four characters. */
  lemma GroupCount(n: int)
    requires n >= 3
    ensures (n + 2) / 3 * 4 == (n - 1) / 3 * 4 + 4
  {
    assert (n + 2) / 3 == (n - 1) / 3 + 1;
  }

  /** Three bytes as four characters: 24 bits cut into four sextets. */
  function EncodeGroup(x: byte, y: byte, z: byte): (s: string)
    ensures |s| == 4 && forall i | 0 <= i < 4 :: IsAlphabetChar(s[i])
  {
    [CharOf(x / 4), CharOf(x % 4 * 16 + y / 16), CharOf(y % 16 * 4 + z / 64), CharOf(z % 64)]
  }

  /** A final pair of bytes: three characters and one `=`. */
  function EncodeTwo(x: byte, y: byte): (s: string)
    ensures |s| == 4 && s[3] == '=' && forall i | 0 <= i < 3 :: IsAlphabetChar(s[i])
    ensures ValueOf(s[2]) % 4 == 0
  {
    [CharOf(x / 4), CharOf(x % 4 * 16 + y / 16), CharOf(y % 16 * 4), '=']
  }

  /** A final single byte: two characters and `==`. */
  function EncodeOne(x: byte): (s: string)
    ensures |s| == 4 && s[2] == '=' && s[3] == '=' && IsAlphabetChar(s[0]) && IsAlphabetChar(s[1])
    ensures ValueOf(s[1]) % 16 == 0
  {
    [CharOf(x / 4), CharOf(x % 4 * 16), '=', '=']
  }

  /** The bytes of a quad of four alphabet characters. */
  function DecodeFull(q: string): (b: seq<byte>)
    requires |q| == 4 && forall i | 0 <= i < 4 :: IsAlphabetChar(q[i])
    ensures |b| == 3
  {
    var v0, v1, v2, v3 := ValueOf(q[0]), ValueOf(q[1]), ValueOf(q[2]), ValueOf(q[3]);
    [v0 * 4 + v1 / 16, v1 % 16 * 16 + v2 / 4, v2 % 4 * 64 + v3]
  }

  /** The last quad of the input: four alphabet characters, three and one
      `=`, or two and `==`. As in the library decoder, the pad bits of the
      last character before `=` are dropped whatever their value. */
  function DecodeLast(q: string): (r: Option<seq<byte>>)
    requires |q| == 4
    ensures r.Some? ==> forall i | 0 <= i < 4 :: IsBase64Char(q[i])
    ensures r.Some? ==> |r.value| == (if q[2] == '=' then 1 else if q[3] == '=' then 2 else 3)
  {
    if forall i | 0 <= i < 4 :: IsAlphabetChar(q[i]) then
      Some(DecodeFull(q))
    else if IsAlphabetChar(q[0]) && IsAlphabetChar(q[1]) && IsAlphabetChar(q[2]) && q[3] == '=' then
      var v0, v1, v2 := ValueOf(q[0]), ValueOf(q[1]), ValueOf(q[2]);
      Some([v0 * 4 + v1 / 16, v1 % 16 * 16 + v2 / 4])
    else if IsAlphabetChar(q[0]) && IsAlphabetChar(q[1]) && q[2] == '=' && q[3] == '=' then
      var v0, v1 := ValueOf(q[0]), ValueOf(q[1]);
      Some([v0 * 4 + v1 / 16])
    else None
  }

  /** `base64.b64decode(s, validate=True)`: None where the library raises
      `binascii.Error` (a length that is not a multiple of four, a character
      outside the alphabet, padding anywhere but at the end, or more than two
      pad characters). */
  function Decode(s: string): (r: Option<seq<byte>>)
    ensures r.Some? ==> |s| % 4 == 0
    ensures r.Some? ==> forall i | 0 <= i < |s| :: IsBase64Char(s[i])
    ensures r.Some? ==> (|r.value| + 2) / 3 * 4 == |s|
    decreases |s|
  {
    if |s| == 0 then Some([])
    else if |s| < 4 then None
    else if |s| == 4 then DecodeLast(s)
    else if forall i | 0 <= i < 4 :: IsAlphabetChar(s[i]) then
      match Decode(s[4..])
      case None => None
      case Some(rest) =>
        GroupFacts(s, |rest|);
        Some(DecodeFull(s[..4]) + rest)
    else None
  }

  /** A full quad in front of a decodable text keeps the facts `Decode`
      promises. */
  lemma GroupFacts(s: string, n: nat)
    requires |s| > 4 && forall i | 0 <= i < 4 :: IsAlphabetChar(s[i])
    requires |s[4..]| % 4 == 0 && forall i | 0 <= i < |s[4..]| :: IsBase64Char(s[4..][i])
    requires (n + 2) / 3 * 4 == |s| - 4
    ensures |s| % 4 == 0 && forall i | 0 <= i < |s| :: IsBase64Char(s[i])
    ensures (n + 3 + 2) / 3 * 4 == |s|
  {
    assert forall i | 4 <= i < |s| :: s[i] == s[4..][i - 4];
    var k := (|s| - 4) / 4;
    assert |s| == 4 * (k + 1);
    GroupCount(n + 3);
  }

  /** One full group of three bytes survives encoding and decoding. */
  lemma FullGroupRoundTrip(x: byte, y: byte, z: byte)
    ensures DecodeFull(EncodeGroup(x, y, z)) == [x, y, z]
  {
    var v1, v2 := x % 4 * 16 + y / 16, y % 16 * 4 + z / 64;
    SplitAt16(x % 4, y / 16);
    SplitAt4(y % 16, z / 64);
    var q := EncodeGroup(x, y, z);
    assert ValueOf(q[0]) == x / 4 && ValueOf(q[1]) == v1;
    assert ValueOf(q[2]) == v2 && ValueOf(q[3]) == z % 64;
  }

  /** A number written as `hi * 16 + lo` with a digit `lo` below 16. */
  lemma SplitAt16(hi: int, lo: int)
    requires 0 <= lo < 16
    ensures (hi * 16 + lo) / 16 == hi && (hi * 16 + lo) % 16 == lo
  {
  }

  /** A number written as `hi * 4 + lo` with a digit `lo` below 4. */
  lemma SplitAt4(hi: int, lo: int)
    requires 0 <= lo < 4
    ensures (hi * 4 + lo) / 4 == hi && (hi * 4 + lo) % 4 == lo
  {
  }

  /** A final group of two bytes, padded with one `=`. */
  lemma TwoBytesRoundTrip(x: byte, y: byte)
    ensures Decode(EncodeTwo(x, y)) == Some([x, y])
  {
    var s := EncodeTwo(x, y);
    assert !IsAlphabetChar(s[3]);
    assert ValueOf(s[0]) * 4 + ValueOf(s[1]) / 16 == x;
    assert ValueOf(s[1]) % 16 * 16 + ValueOf(s[2]) / 4 == y;
  }

  /** A final group of one byte, padded with `==`. */
  lemma OneByteRoundTrip(x: byte)
    ensures Decode(EncodeOne(x)) == Some([x])
  {
    var s := EncodeOne(x);
    assert !IsAlphabetChar(s[2]) && !IsAlphabetChar(s[3]);
    assert ValueOf(s[0]) * 4 + ValueOf(s[1]) / 16 == x;
  }

  /** Decoding a full quad followed by more input. */
  lemma DecodeCons(g: string, rest: string)
    requires |g| == 4 && forall i | 0 <= i < 4 :: IsAlphabetChar(g[i])
    requires |rest| > 0 && Decode(rest).Some?
    ensures Decode(g + rest) == Some(DecodeFull(g) + Decode(rest).value)
  {
    var s := g + rest;
    assert s[..4] == g && s[4..] == rest;
    assert forall i | 0 <= i < 4 :: IsAlphabetChar(s[i]);
  }

  /** A quad of alphabet characters that decodes to the first three bytes,
      followed by text that decodes to the remaining ones, decodes to all. */
  lemma DecodeJoin(b: seq<byte>, g: string, rest: string)
    requires |b| >= 3
    requires |g| == 4 && forall i | 0 <= i < 4 :: IsAlphabetChar(g[i])
    requires DecodeFull(g) == b[..3]
    requires |b| == 3 ==> rest == []
    requires |b| > 3 ==> |rest| > 0 && Decode(rest) == Some(b[3..])
    ensures Decode(g + rest) == Some(b)
  {
    if |b| == 3 {
      assert g + rest == g;
      assert Decode(g) == DecodeLast(g);
      assert b == b[..3];
    } else {
      DecodeCons(g, rest);
      assert b == b[..3] + b[3..];
    }
  }

  /** The encoding of at least three bytes is the first group's quad
      followed by the encoding of the rest, which is empty exactly when
      nothing is left. */
  lemma EncodeCons(b: seq<byte>)
    requires |b| >= 3
    ensures Encode(b) == EncodeGroup(b[0], b[1], b[2]) + Encode(b[3..])
    ensures |Encode(b[3..])| == 0 <==> |b| == 3
  {
  }

  /** Round trip: decoding the encoding of any byte string gives it back. */
  lemma {:induction false} DecodeEncode(b: seq<byte>)
    ensures Decode(Encode(b)) == Some(b)
    decreases |b|
  {
    if |b| >= 3 {
      EncodeCons(b);
      FullGroupRoundTrip(b[0], b[1], b[2]);
      assert [b[0], b[1], b[2]] == b[..3];
      if |b| > 3 {
        DecodeEncode(b[3..]);
      }
      DecodeJoin(b, EncodeGroup(b[0], b[1], b[2]), Encode(b[3..]));
    } else if |b| == 2 {
      TwoBytesRoundTrip(b[0], b[1]);
      assert b == [b[0], b[1]];
    } else if |b| == 1 {
      OneByteRoundTrip(b[0]);
      assert b == [b[0]];
    }
  }

  /** The encoder is canonical: a whole number of groups uses no `=`, and
      before a final `==` or `=` the unused low bits of the last character
      are zero. */
  lemma {:induction false} EncodePadBits(b: seq<byte>)
    ensures var s := Encode(b);
      && (|b| % 3 == 0 ==> forall i | 0 <= i < |s| :: IsAlphabetChar(s[i]))
      && (|b| % 3 == 1 ==> && |s| >= 4 && s[|s| - 1] == '=' && s[|s| - 2] == '='
                           && IsAlphabetChar(s[|s| - 3]) && ValueOf(s[|s| - 3]) % 16 == 0)
      && (|b| % 3 == 2 ==> && |s| >= 4 && s[|s| - 1] == '='
                           && IsAlphabetChar(s[|s| - 2]) && ValueOf(s[|s| - 2]) % 4 == 0)
    decreases |b|
  {
    if |b| >= 3 {
      EncodeCons(b);
      var s, g, rest := Encode(b), EncodeGroup(b[0], b[1], b[2]), Encode(b[3..]);
      EncodePadBits(b[3..]);
      ModThree(|b|);
      if |b| % 3 == 0 {
        forall i | 0 <= i < |s| ensures IsAlphabetChar(s[i]) {
          if i >= 4 {
            assert s[i] == rest[i - 4];
          }
        }
      } else {
        assert |rest| >= 4;
        assert s[|s| - 1] == rest[|rest| - 1];
        assert s[|s| - 2] == rest[|rest| - 2];
        assert s[|s| - 3] == rest[|rest| - 3];
      }
    } else {
      assert |b| % 3 == |b|;
    }
  }

  /** Dropping a group of three leaves the remainder modulo 3 alone. */
  lemma ModThree(n: int)
    requires n >= 3
    ensures (n - 3) % 3 == n % 3
  {
  }

  /** The test vectors of section 10 of RFC 4648. */
  lemma Rfc4648Vectors()
    ensures Encode([]) == ""
    ensures Encode([0x66]) == "Zg=="
    ensures Encode([0x66, 0x6f]) == "Zm8="
    ensures Encode([0x66, 0x6f, 0x6f]) == "Zm9v"
    ensures Encode([0x66, 0x6f, 0x6f, 0x62]) == "Zm9vYg=="
    ensures Encode([0x66, 0x6f, 0x6f, 0x62, 0x61]) == "Zm9vYmE="
    ensures Encode([0x66, 0x6f, 0x6f, 0x62, 0x61, 0x72]) == "Zm9vYmFy"
  {
    VectorOne();
    VectorTwo();
    VectorThree();
    VectorFour();
    VectorFive();
    VectorSix();
  }

  lemma VectorOne()
    ensures Encode([0x66]) == "Zg=="
  {
    assert EncodeOne(0x66) == [CharOf(25), CharOf(32), '=', '='];
  }

  lemma VectorTwo()
    ensures Encode([0x66, 0x6f]) == "Zm8="
  {
    assert EncodeTwo(0x66, 0x6f) == [CharOf(25), CharOf(38), CharOf(60), '='];
  }

  lemma VectorThree()
    ensures Encode([0x66, 0x6f, 0x6f]) == "Zm9v"
  {
    FooGroup();
    EncodeCons([0x66, 0x6f, 0x6f]);
    assert [0x66, 0x6f, 0x6f][3..] == [];
  }

  lemma VectorFour()
    ensures Encode([0x66, 0x6f, 0x6f, 0x62]) == "Zm9vYg=="
  {
    var b: seq<byte> := [0x66, 0x6f, 0x6f, 0x62];
    FooGroup();
    EncodeCons(b);
    assert b[3..] == [0x62];
    assert EncodeOne(0x62) == [CharOf(24), CharOf(32), '=', '='];
  }

  lemma VectorFive()
    ensures Encode([0x66, 0x6f, 0x6f, 0x62, 0x61]) == "Zm9vYmE="
  {
    var b: seq<byte> := [0x66, 0x6f, 0x6f, 0x62, 0x61];
    FooGroup();
    EncodeCons(b);
    assert b[3..] == [0x62, 0x61];
    assert EncodeTwo(0x62, 0x61) == [CharOf(24), CharOf(38), CharOf(4), '='];
  }

  lemma VectorSix()
    ensures Encode([0x66, 0x6f, 0x6f, 0x62, 0x61, 0x72]) == "Zm9vYmFy"
  {
    var b: seq<byte> := [0x66, 0x6f, 0x6f, 0x62, 0x61, 0x72];
    FooGroup();
    EncodeCons(b);
    assert b[3..] == [0x62, 0x61, 0x72];
    EncodeCons(b[3..]);
    assert b[3..][3..] == [];
    assert EncodeGroup(0x62, 0x61, 0x72) == [CharOf(24), CharOf(38), CharOf(5), CharOf(50)];
  }

  /** The group `foo`, shared by the longer vectors. */
  lemma FooGroup()
    ensures EncodeGroup(0x66, 0x6f, 0x6f) == "Zm9v"
  {
    assert EncodeGroup(0x66, 0x6f, 0x6f) == [CharOf(25), CharOf(38), CharOf(61), CharOf(47)];
  }
}

=== FILE: bits.dfy ===
/** Strings of binary digits: `int(g, 2)` on a group of digits, and the
    split of a digit string into 8-digit groups that each name one code
    point (`chr`), with the encoder that is the partner of both. */
module Bits {

  predicate IsBit(c: char) { c == '0' || c == '1' }

  function Pow2(n: nat): nat {
    if n == 0 then 1 else 2 * Pow2(n - 1)
  }

  /** `int(g, 2)`: the digits read most significant first. */
  function ParseBinary(g: string): (v: nat)
    requires forall i | 0 <= i < |g| :: IsBit(g[i])
    ensures v < Pow2(|g|)
    decreases |g|
  {
    if |g| == 0 then 0
    else ParseBinary(g[..|g| - 1]) * 2 + (if g[|g| - 1] == '1' then 1 else 0)
  }

  /** Most significant digit first: a leading `1` is worth two to the power
      of the number of digits after it. */
  lemma {:induction false} ParseBinaryLeading(c: char, g: string)
    requires IsBit(c) && forall i | 0 <= i < |g| :: IsBit(g[i])
    ensures ParseBinary([c] + g) == (if c == '1' then Pow2(|g|) else 0) + ParseBinary(g)
    decreases |g|
  {
    var s := [c] + g;
    if |g| > 0 {
      assert s[..|s| - 1] == [c] + g[..|g| - 1];
      ParseBinaryLeading(c, g[..|g| - 1]);
    } else {
      assert s[..0] == [];
    }
  }

  /** The group of `H` in the binary spelling of "Hello". */
  lemma ParseBinaryOfH()
    ensures ParseBinary("01001000") == 72
  {
    assert Pow2(8) == 256;
    assert ToBinary(72, 8) == "01001000";
    ParseToBinary(72, 8);
  }

  /** The `n`-digit binary numeral of `v`, most significant digit first,
      with leading zeros. */
  function ToBinary(v: nat, n: nat): (g: string)
    requires v < Pow2(n)
    ensures |g| == n
    ensures forall i | 0 <= i < |g| :: IsBit(g[i])
    decreases n
  {
    if n == 0 then [] else ToBinary(v / 2, n - 1) + [if v % 2 == 1 then '1' else '0']
  }

  lemma {:induction false} ParseToBinary(v: nat, n: nat)
    requires v < Pow2(n)
    ensures ParseBinary(ToBinary(v, n)) == v
    decreases n
  {
    if n > 0 {
      var g := ToBinary(v, n);
      assert g[..n - 1] == ToBinary(v / 2, n - 1);
      ParseToBinary(v / 2, n - 1);
    }
  }

  lemma {:induction false} ToBinaryParse(g: string)
    requires forall i | 0 <= i < |g| :: IsBit(g[i])
    ensures ToBinary(ParseBinary(g), |g|) == g
    decreases |g|
  {
    if |g| > 0 {
      var init := g[..|g| - 1];
      ToBinaryParse(init);
      assert g == init + [g[|g| - 1]];
    }
  }

  /** The join of `chr(int(group, 2))` over the 8-digit groups of `s`:
      one code point below 256 per group. */
  function DecodeGroups(s: string): (t: string)
    requires |s| % 8 == 0 && forall i | 0 <= i < |s| :: IsBit(s[i])
    ensures 8 * |t| == |s|
    ensures forall k | 0 <= k < |t| :: t[k] as int < 256
    decreases |s|
  {
    if |s| == 0 then []
    else
      assert Pow2(8) == 256;
      [ParseBinary(s[..8]) as char] + DecodeGroups(s[8..])
  }

  /** Eight binary digits per character; the partner of `DecodeGroups`. */
  function EncodeGroups(t: string): (s: string)
    requires forall k | 0 <= k < |t| :: t[k] as int < 256
    ensures |s| == 8 * |t| && |s| % 8 == 0
    ensures forall i | 0 <= i < |s| :: IsBit(s[i])
  {
    assert Pow2(8) == 256;
    if |t| == 0 then [] else ToBinary(t[0] as int, 8) + EncodeGroups(t[1..])
  }

  /** Round trip: every string of code points below 256 survives being
      written as 8-digit groups and read back. */
  lemma {:induction false} DecodeEncodeGroups(t: string)
    requires forall k | 0 <= k < |t| :: t[k] as int < 256
    ensures DecodeGroups(EncodeGroups(t)) == t
  {
    if |t| > 0 {
      assert Pow2(8) == 256;
      var s := EncodeGroups(t);
      assert s[..8] == ToBinary(t[0] as int, 8);
      assert s[8..] == EncodeGroups(t[1..]);
      ParseToBinary(t[0] as int, 8);
      DecodeEncodeGroups(t[1..]);
      assert t == [t[0]] + t[1..];
    }
  }

  /** Round trip the other way: a digit string whose length is a multiple
      of eight is the encoding of what it decodes to. */
  lemma {:induction false} EncodeDecodeGroups(s: string)
    requires |s| % 8 == 0 && forall i | 0 <= i < |s| :: IsBit(s[i])
    ensures EncodeGroups(DecodeGroups(s)) == s
    decreases |s|
  {
    if |s| > 0 {
      var t := DecodeGroups(s);
      assert t[1..] == DecodeGroups(s[8..]);
      ToBinaryParse(s[..8]);
      EncodeDecodeGroups(s[8..]);
      assert s == s[..8] + s[8..];
    }
  }
}

=== FILE: morse.dfy ===
/** Morse code as the source decodes it: the input is split at every
    single space, each token is looked up in a fixed table, and tokens the
    table does not know contribute nothing. */
module MorseCode {
  import opened Ascii

  /** The source's table: 26 letters, 10 digits, and `/` and a lone space
      both standing for a space. */
  const Table: map<string, string> := map[
    ".-" := "A", "-..." := "B", "-.-." := "C", "-.." := "D", "." := "E",
    "..-." := "F", "--." := "G", "...." := "H", ".." := "I", ".---" := "J",
    "-.-" := "K", ".-.." := "L", "--" := "M", "-." := "N", "---" := "O",
    ".--." := "P", "--.-" := "Q", ".-." := "R", "..." := "S", "-" := "T",
    "..-" := "U", "...-" := "V", ".--" := "W", "-..-" := "X", "-.--" := "Y",
    "--.." := "Z", "-----" := "0", ".----" := "1", "..---" := "2",
    "...--" := "3", "....-" := "4", "....." := "5", "-...." := "6",
    "--..." := "7", "---.." := "8", "----." := "9", "/" := " ", " " := " "]

  /** A character a Morse text may contain: dot, dash, space and `/`. */
  predicate IsMorseChar(c: char) { c == '.' || c == '-' || c == ' ' || c == '/' }

  /** A character the table can produce. */
  predicate IsPlainChar(c: char) { IsUpper(c) || IsDigit(c) || c == ' ' }

  /** `Table.get(token, '')`. */
  function Lookup(token: string): (r: string)
    ensures |r| <= 1
    ensures forall i | 0 <= i < |r| :: IsPlainChar(r[i])
    ensures token !in Table ==> r == []
  {
    if token in Table then Table[token] else []
  }

  /** `s.split(' ')`: the pieces between single spaces, empty pieces
      included, so there is always one more piece than there are spaces. */
  function Split(s: string): (tokens: seq<string>)
    ensures |tokens| >= 1
    ensures forall k | 0 <= k < |tokens| :: ' ' !in tokens[k]
    decreases |s|
  {
    if |s| == 0 then [[]]
    else
      var rest := Split(s[1..]);
      if s[0] == ' ' then [[]] + rest
      else [[s[0]] + rest[0]] + rest[1..]
  }

  /** `' '.join(tokens)`. */
  function Join(tokens: seq<string>): (s: string)
    decreases |tokens|
  {
    if |tokens| == 0 then []
    else if |tokens| == 1 then tokens[0]
    else tokens[0] + [' '] + Join(tokens[1..])
  }

  /** The concatenation of the lookups of all tokens. */
  function DecodeTokens(tokens: seq<string>): (r: string)
    ensures |r| <= |tokens|
    ensures forall i | 0 <= i < |r| :: IsPlainChar(r[i])
  {
    if |tokens| == 0 then [] else Lookup(tokens[0]) + DecodeTokens(tokens[1..])
  }

  /** `''.join(Table.get(code, '') for code in s.split(' '))`. */
  function Decode(s: string): (r: string)
    ensures forall i | 0 <= i < |r| :: IsPlainChar(r[i])
  {
    DecodeTokens(Split(s))
  }

  /** Splitting and joining again gives the input back. */
  lemma {:induction false} JoinSplit(s: string)
    ensures Join(Split(s)) == s
    decreases |s|
  {
    if |s| > 0 {
      JoinSplit(s[1..]);
      var rest := Split(s[1..]);
      if s[0] != ' ' && |rest| > 1 {
        assert rest == [rest[0]] + rest[1..];
        assert Join(rest) == rest[0] + [' '] + Join(rest[1..]);
      }
      assert s == [s[0]] + s[1..];
    }
  }

  /** Joining space-free tokens and splitting again gives the tokens back. */
  lemma {:induction false} SplitJoin(tokens: seq<string>)
    requires |tokens| > 0
    requires forall k | 0 <= k < |tokens| :: ' ' !in tokens[k]
    ensures Split(Join(tokens)) == tokens
    decreases |tokens|, |tokens[0]|
  {
    var t := tokens[0];
    if |t| > 0 {
      var tokens' := [t[1..]] + tokens[1..];
      assert ' ' !in tokens'[0];
      SplitJoin(tokens');
      JoinFirstChar(tokens);
      SplitCons(t[0], Join(tokens'));
      assert t == [t[0]] + t[1..];
      assert tokens == [[t[0]] + t[1..]] + tokens[1..];
    } else if |tokens| > 1 {
      SplitJoin(tokens[1..]);
      assert Join(tokens) == [' '] + Join(tokens[1..]);
      assert ([' '] + Join(tokens[1..]))[1..] == Join(tokens[1..]);
      assert tokens == [[]] + tokens[1..];
    }
  }

  /** A join whose first token is non-empty starts with that token's first
      character, followed by the join with that character removed. */
  lemma JoinFirstChar(tokens: seq<string>)
    requires |tokens| > 0 && |tokens[0]| > 0
    ensures Join(tokens) == [tokens[0][0]] + Join([tokens[0][1..]] + tokens[1..])
  {
    var t := tokens[0];
    var tokens' := [t[1..]] + tokens[1..];
    assert tokens'[1..] == tokens[1..];
    assert t == [t[0]] + t[1..];
  }

  /** Splitting a text that starts with a non-space character. */
  lemma SplitCons(c: char, s: string)
    requires c != ' '
    ensures Split([c] + s) == [[c] + Split(s)[0]] + Split(s)[1..]
  {
    assert ([c] + s)[1..] == s;
  }

  /** The token the table maps to a given character (`/` for a space). */
  function Code(c: char): (token: string)
    requires IsPlainChar(c)
    ensures |token| > 0 && ' ' !in token
    ensures forall i | 0 <= i < |token| :: IsMorseChar(token[i])
  {
    match c
    case 'A' => ".-"   case 'B' => "-..."  case 'C' => "-.-."  case 'D' => "-.."
    case 'E' => "."    case 'F' => "..-."  case 'G' => "--."   case 'H' => "...."
    case 'I' => ".."   case 'J' => ".---"  case 'K' => "-.-"   case 'L' => ".-.."
    case 'M' => "--"   case 'N' => "-."    case 'O' => "---"   case 'P' => ".--."
    case 'Q' => "--.-" case 'R' => ".-."   case 'S' => "..."   case 'T' => "-"
    case 'U' => "..-"  case 'V' => "...-"  case 'W' => ".--"   case 'X' => "-..-"
    case 'Y' => "-.--" case 'Z' => "--.."
    case '0' => "-----" case '1' => ".----" case '2' => "..---" case '3' => "...--"
    case '4' => "....-" case '5' => "....." case '6' => "-...." case '7' => "--..."
    case '8' => "---.." case '9' => "----."
    case _ => "/"
  }

  /** Looking up the code of a character gives the character. */
  lemma LookupCode(c: char)
    requires IsPlainChar(c)
    ensures Lookup(Code(c)) == [c]
  {
    if c == 'A' {
      LookupCodeA();
    } else if c == 'B' {
      LookupCodeB();
    } else if c == 'C' {
      LookupCodeC();
    } else if c == 'D' {
      LookupCodeD();
    } else if c == 'E' {
      LookupCodeE();
    } else if c == 'F' {
      LookupCodeF();
    } else if c == 'G' {
      LookupCodeG();
    } else if c == 'H' {
      LookupCodeH();
    } else if c == 'I' {
      LookupCodeI();
    } else if c == 'J' {
      LookupCodeJ();
    } else if c == 'K' {
      LookupCodeK();
    } else if c == 'L' {
      LookupCodeL();
    } else if c == 'M' {
      LookupCodeM();
    } else if c == 'N' {
      LookupCodeN();
    } else if c == 'O' {
      LookupCodeO();
    } else if c == 'P' {
      LookupCodeP();
    } else if c == 'Q' {
      LookupCodeQ();
    } else if c == 'R' {
      LookupCodeR();
    } else if c == 'S' {
      LookupCodeS();
    } else if c == 'T' {
      LookupCodeT();
    } else if c == 'U' {
      LookupCodeU();
    } else if c == 'V' {
      LookupCodeV();
    } else if c == 'W' {
      LookupCodeW();
    } else if c == 'X' {
      LookupCodeX();
    } else if c == 'Y' {
      LookupCodeY();
    } else if c == 'Z' {
      LookupCodeZ();
    } else if c == '0' {
      LookupCodeZero();
    } else if c == '1' {
      LookupCodeOne();
    } else if c == '2' {
      LookupCodeTwo();
    } else if c == '3' {
      LookupCodeThree();
    } else if c == '4' {
      LookupCodeFour();
    } else if c == '5' {
      LookupCodeFive();
    } else if c == '6' {
      LookupCodeSix();
    } else if c == '7' {
      LookupCodeSeven();
    } else if c == '8' {
      LookupCodeEight();
    } else if c == '9' {
      LookupCodeNine();
    }
  }

  /** The table entry behind each character's code, one at a time. */
  lemma LookupCodeA() ensures Lookup(Code('A')) == "A" { }
  lemma LookupCodeB() ensures Lookup(Code('B')) == "B" { }
  lemma LookupCodeC() ensures Lookup(Code('C')) == "C" { }
  lemma LookupCodeD() ensures Lookup(Code('D')) == "D" { }
  lemma LookupCodeE() ensures Lookup(Code('E')) == "E" { }
  lemma LookupCodeF() ensures Lookup(Code('F')) == "F" { }
  lemma LookupCodeG() ensures Lookup(Code('G')) == "G" { }
  lemma LookupCodeH() ensures Lookup(Code('H')) == "H" { }
  lemma LookupCodeI() ensures Lookup(Code('I')) == "I" { }
  lemma LookupCodeJ() ensures Lookup(Code('J')) == "J" { }
  lemma LookupCodeK() ensures Lookup(Code('K')) == "K" { }
  lemma LookupCodeL() ensures Lookup(Code('L')) == "L" { }
  lemma LookupCodeM() ensures Lookup(Code('M')) == "M" { }
  lemma LookupCodeN() ensures Lookup(Code('N')) == "N" { }
  lemma LookupCodeO() ensures Lookup(Code('O')) == "O" { }
  lemma LookupCodeP() ensures Lookup(Code('P')) == "P" { }
  lemma LookupCodeQ() ensures Lookup(Code('Q')) == "Q" { }
  lemma LookupCodeR() ensures Lookup(Code('R')) == "R" { }
  lemma LookupCodeS() ensures Lookup(Code('S')) == "S" { }
  lemma LookupCodeT() ensures Lookup(Code('T')) == "T" { }
  lemma LookupCodeU() ensures Lookup(Code('U')) == "U" { }
  lemma LookupCodeV() ensures Lookup(Code('V')) == "V" { }
  lemma LookupCodeW() ensures Lookup(Code('W')) == "W" { }
  lemma LookupCodeX() ensures Lookup(Code('X')) == "X" { }
  lemma LookupCodeY() ensures Lookup(Code('Y')) == "Y" { }
  lemma LookupCodeZ() ensures Lookup(Code('Z')) == "Z" { }
  lemma LookupCodeZero() ensures Lookup(Code('0')) == "0" { }
  lemma LookupCodeOne() ensures Lookup(Code('1')) == "1" { }
  lemma LookupCodeTwo() ensures Lookup(Code('2')) == "2" { }
  lemma LookupCodeThree() ensures Lookup(Code('3')) == "3" { }
  lemma LookupCodeFour() ensures Lookup(Code('4')) == "4" { }
  lemma LookupCodeFive() ensures Lookup(Code('5')) == "5" { }
  lemma LookupCodeSix() ensures Lookup(Code('6')) == "6" { }
  lemma LookupCodeSeven() ensures Lookup(Code('7')) == "7" { }
  lemma LookupCodeEight() ensures Lookup(Code('8')) == "8" { }
  lemma LookupCodeNine() ensures Lookup(Code('9')) == "9" { }

  /** Morse encoding of a text: the codes of its characters joined by
      single spaces; the partner of `Decode`. */
  function Encode(t: string): (s: string)
    requires forall i | 0 <= i < |t| :: IsPlainChar(t[i])
  {
    Join(Codes(t))
  }

  /** The codes of the characters of a text, one token each. */
  function Codes(t: string): (tokens: seq<string>)
    requires forall i | 0 <= i < |t| :: IsPlainChar(t[i])
    ensures |tokens| == |t|
    ensures forall k | 0 <= k < |tokens| :: tokens[k] == Code(t[k])
  {
    seq(|t|, i requires 0 <= i < |t| => Code(t[i]))
  }

  lemma {:induction false} DecodeCodes(t: string)
    requires forall i | 0 <= i < |t| :: IsPlainChar(t[i])
    ensures DecodeTokens(Codes(t)) == t
  {
    if |t| > 0 {
      CodesCons(t);
      LookupCode(t[0]);
      DecodeCodes(t[1..]);
      DecodeTokensCons(Code(t[0]), Codes(t[1..]));
      assert t == [t[0]] + t[1..];
    }
  }

  /** The codes of a non-empty text are the first character's code followed
      by the codes of the rest. */
  lemma CodesCons(t: string)
    requires |t| > 0 && forall i | 0 <= i < |t| :: IsPlainChar(t[i])
    ensures Codes(t) == [Code(t[0])] + Codes(t[1..])
  {
  }

  /** Decoding a token list is per token. */
  lemma DecodeTokensCons(x: string, tokens: seq<string>)
    ensures DecodeTokens([x] + tokens) == Lookup(x) + DecodeTokens(tokens)
  {
    assert ([x] + tokens)[1..] == tokens;
  }

  /** Round trip: decoding the Morse encoding of any text over the table's
      characters gives the text back. */
  lemma DecodeEncode(t: string)
    requires forall i | 0 <= i < |t| :: IsPlainChar(t[i])
    ensures Decode(Encode(t)) == t
  {
    if |t| == 0 {
      assert Encode(t) == [];
      assert Split([]) == [[]];
    } else {
      SplitJoin(Codes(t));
      DecodeCodes(t);
    }
  }

  /** Joining tokens of Morse characters gives a Morse text. */
  lemma {:induction false} JoinMorseChars(tokens: seq<string>)
    requires forall k, i | 0 <= k < |tokens| && 0 <= i < |tokens[k]| :: IsMorseChar(tokens[k][i])
    ensures forall i | 0 <= i < |Join(tokens)| :: IsMorseChar(Join(tokens)[i])
    decreases |tokens|
  {
    if |tokens| > 1 {
      JoinMorseChars(tokens[1..]);
      var s := Join(tokens);
      assert s == tokens[0] + [' '] + Join(tokens[1..]);
      forall i | 0 <= i < |s| ensures IsMorseChar(s[i]) {
        if i < |tokens[0]| {
          assert s[i] == tokens[0][i];
        } else if i > |tokens[0]| {
          assert s[i] == Join(tokens[1..])[i - |tokens[0]| - 1];
        }
      }
    }
  }

  /** A Morse encoding uses only Morse characters. */
  lemma EncodeMorseChars(t: string)
    requires forall i | 0 <= i < |t| :: IsPlainChar(t[i])
    ensures forall i | 0 <= i < |Encode(t)| :: IsMorseChar(Encode(t)[i])
  {
    JoinMorseChars(Codes(t));
  }
}

=== FILE: percent.dfy ===
/** Percent-decoding as `urllib.parse.unquote` does it (section 2.1 of
    RFC 3986): every `%XX` escape stands for one byte, each run of escaped
    bytes is decoded as UTF-8 with `errors='replace'`, and a `%` that is not
    followed by two hexadecimal digits is kept as it is. */
module Percent {
  import opened Ascii
  import Utf8

  /** `s` begins with an escape `%XX`. */
  predicate StartsWithEscape(s: string) {
    |s| >= 3 && s[0] == '%' && IsHexDigit(s[1]) && IsHexDigit(s[2])
  }

  /** The byte an escape at the head of `s` stands for. */
  function EscapedByte(s: string): byte
    requires StartsWithEscape(s)
  {
    HexValue(s[1]) * 16 + HexValue(s[2])
  }

  /** `unquote(s)`. */
  function Unquote(s: string): (r: string)
    ensures |r| <= |s|
    ensures !HasEscape(s) ==> r == s
    ensures HasEscape(s) ==> |r| + 2 <= |s|
  {
    if HasEscape(s) then
      UnquoteWithEscape(s, []);
      UnquoteFrom(s, [])
    else
      UnquoteWithoutEscape(s);
      UnquoteFrom(s, [])
  }

  /** Decoding of `s` when the escaped bytes `pending` were read just
      before it and are not yet decoded. A literal character ends the run:
      the pending bytes are decoded (an ASCII character can never continue a
      UTF-8 sequence, and the library passes non-ASCII characters through
      between runs), then the character is copied. */
  function UnquoteFrom(s: string, pending: seq<byte>): (r: string)
    ensures |r| <= |pending| + |s|
    decreases |s|
  {
    if |s| == 0 then Utf8.DecodeLossy(pending)
    else if StartsWithEscape(s) then UnquoteFrom(s[3..], pending + [EscapedByte(s)])
    else Utf8.DecodeLossy(pending) + [s[0]] + UnquoteFrom(s[1..], [])
  }

  /** Some position of `s` begins an escape. */
  predicate HasEscape(s: string) {
    exists i | 0 <= i < |s| :: StartsWithEscape(s[i..])
  }

  /** Text without an escape is left unchanged. */
  lemma {:induction false} UnquoteWithoutEscape(s: string)
    requires !HasEscape(s)
    ensures UnquoteFrom(s, []) == s
  {
    if |s| > 0 {
      assert !StartsWithEscape(s[0..]);
      assert s[0..] == s;
      forall i | 0 <= i < |s| - 1 ensures !StartsWithEscape(s[1..][i..]) {
        assert s[1..][i..] == s[i + 1..];
      }
      UnquoteWithoutEscape(s[1..]);
      assert s == [s[0]] + s[1..];
    }
  }

  /** Text with an escape loses at least two characters. */
  lemma {:induction false} UnquoteWithEscape(s: string, pending: seq<byte>)
    requires HasEscape(s)
    ensures |UnquoteFrom(s, pending)| + 2 <= |pending| + |s|
    decreases |s|
  {
    if !StartsWithEscape(s) {
      var i :| 0 <= i < |s| && StartsWithEscape(s[i..]);
      assert i > 0 && s[1..][i - 1..] == s[i..];
      UnquoteWithEscape(s[1..], []);
    }
  }

  /** Text without `%` is left unchanged: the shortcut the library takes
      before decoding anything is consistent with decoding. */
  lemma UnquoteWithoutPercent(s: string)
    requires '%' !in s
    ensures Unquote(s) == s
  {
    forall i | 0 <= i < |s| ensures !StartsWithEscape(s[i..]) {
      assert s[i..][0] == s[i];
    }
    UnquoteWithoutEscape(s);
  }

  /** A text that unquoting changes gets strictly shorter: every change
      replaces an escape of three characters by at most one. */
  lemma UnquoteShortens(s: string)
    ensures Unquote(s) != s ==> |Unquote(s)| < |s|
  {
    if HasEscape(s) {
      UnquoteWithEscape(s, []);
    } else {
      UnquoteWithoutEscape(s);
    }
  }

  /** `%XX` for every byte, upper-case digits. */
  function EscapeBytes(b: seq<byte>): (s: string)
    ensures |s| == 3 * |b|
    ensures forall k | 0 <= k < |b| :: s[3 * k] == '%'
  {
    if |b| == 0 then []
    else
      var rest := EscapeBytes(b[1..]);
      var s := ['%', UpperHexDigit(b[0] / 16), UpperHexDigit(b[0] % 16)] + rest;
      assert forall k | 1 <= k < |b| :: s[3 * k] == rest[3 * (k - 1)];
      s
  }

  function UpperHexDigit(v: int): (c: char)
    requires 0 <= v < 16
    ensures IsHexDigit(c) && HexValue(c) == v
  {
    if v < 10 then ('0' as int + v) as char else ('A' as int + v - 10) as char
  }

  /** Percent-encoding of every character of a text: the partner of
      `Unquote`. */
  function Quote(t: string): (s: string)
    ensures |s| >= 3 * |t|
  {
    EscapeBytes(Utf8.Encode(t))
  }

  /** A string made only of escapes adds its bytes to the pending run. */
  lemma {:induction false} UnquoteEscapes(b: seq<byte>, pending: seq<byte>)
    ensures UnquoteFrom(EscapeBytes(b), pending) == Utf8.DecodeLossy(pending + b)
  {
    if |b| > 0 {
      var s := EscapeBytes(b);
      assert StartsWithEscape(s) && EscapedByte(s) == b[0];
      assert s[3..] == EscapeBytes(b[1..]);
      UnquoteEscapes(b[1..], pending + [b[0]]);
      assert (pending + [b[0]]) + b[1..] == pending + b;
    } else {
      assert pending + b == pending;
    }
  }

  /** Round trip: unquoting the quoting of any text gives it back. */
  lemma QuoteRoundTrip(t: string)
    ensures Unquote(Quote(t)) == t
  {
    var b := Utf8.Encode(t);
    UnquoteEscapes(b, []);
    assert [] + b == b;
    Utf8.DecodeEncode(t);
    Utf8.LossyAgreesWhenValid(b);
  }
}

=== FILE: rot13.dfy ===
/** ROT13 as `str.translate` with the 52-letter table of the source:
    each ASCII letter moves 13 places on within its own case, wrapping, and
    every other character is left alone. */
module Rot13Cipher {
  import opened Ascii

  /** The translation of one character: the table written as a rotation
      by 13 within each case. */
  function RotChar(c: char): (r: char)
    ensures IsUpper(r) <==> IsUpper(c)
    ensures IsLower(r) <==> IsLower(c)
    ensures !IsLetter(c) ==> r == c
    ensures IsLetter(c) ==> r != c
  {
    if IsUpper(c) then ('A' as int + Rotate(c as int - 'A' as int)) as char
    else if IsLower(c) then ('a' as int + Rotate(c as int - 'a' as int)) as char
    else c
  }

  /** A position in the alphabet moved 13 places on, wrapping at 26. */
  function Rotate(k: int): (r: int)
    requires 0 <= k < 26
    ensures 0 <= r < 26 && r != k
    ensures r == (k + 13) % 26
  {
    if k < 13 then k + 13 else k - 13
  }

  /** The rotation agrees with the source's table on the upper-case letters A to M. */
  lemma MatchesTableUpperFirstHalf()
    ensures RotChar('A') == 'N' && RotChar('B') == 'O' && RotChar('C') == 'P' && RotChar('D') == 'Q' && RotChar('E') == 'R'
    ensures RotChar('F') == 'S' && RotChar('G') == 'T' && RotChar('H') == 'U' && RotChar('I') == 'V' && RotChar('J') == 'W'
    ensures RotChar('K') == 'X' && RotChar('L') == 'Y' && RotChar('M') == 'Z'
  {
  }

  /** The rotation agrees with the source's table on the upper-case letters N to Z. */
  lemma MatchesTableUpperSecondHalf()
    ensures RotChar('N') == 'A' && RotChar('O') == 'B' && RotChar('P') == 'C' && RotChar('Q') == 'D' && RotChar('R') == 'E'
    ensures RotChar('S') == 'F' && RotChar('T') == 'G' && RotChar('U') == 'H' && RotChar('V') == 'I' && RotChar('W') == 'J'
    ensures RotChar('X') == 'K' && RotChar('Y') == 'L' && RotChar('Z') == 'M'
  {
  }

  /** The rotation agrees with the source's table on the lower-case letters a to m. */
  lemma MatchesTableLowerFirstHalf()
    ensures RotChar('a') == 'n' && RotChar('b') == 'o' && RotChar('c') == 'p' && RotChar('d') == 'q' && RotChar('e') == 'r'
    ensures RotChar('f') == 's' && RotChar('g') == 't' && RotChar('h') == 'u' && RotChar('i') == 'v' && RotChar('j') == 'w'
    ensures RotChar('k') == 'x' && RotChar('l') == 'y' && RotChar('m') == 'z'
  {
  }

  /** The rotation agrees with the source's table on the lower-case letters n to z. */
  lemma MatchesTableLowerSecondHalf()
    ensures RotChar('n') == 'a' && RotChar('o') == 'b' && RotChar('p') == 'c' && RotChar('q') == 'd' && RotChar('r') == 'e'
    ensures RotChar('s') == 'f' && RotChar('t') == 'g' && RotChar('u') == 'h' && RotChar('v') == 'i' && RotChar('w') == 'j'
    ensures RotChar('x') == 'k' && RotChar('y') == 'l' && RotChar('z') == 'm'
  {
  }

  /** `text.translate(table)`. */
  function Translate(s: string): (r: string)
    ensures |r| == |s|
    ensures forall i | 0 <= i < |s| :: r[i] == RotChar(s[i])
  {
    seq(|s|, i requires 0 <= i < |s| => RotChar(s[i]))
  }

  /** Applying the table twice is the identity. */
  lemma Involution(s: string)
    ensures Translate(Translate(s)) == s
  {
    forall i | 0 <= i < |s| ensures Translate(Translate(s))[i] == s[i] {
      RotCharTwice(s[i]);
    }
  }

  /** Rotating one character twice gives it back. */
  lemma RotCharTwice(c: char)
    ensures RotChar(RotChar(c)) == c
  {
  }


  /** A non-empty run of letters always changes under ROT13. */
  lemma LettersChange(s: string)
    requires |s| > 0 && forall i | 0 <= i < |s| :: IsLetter(s[i])
    ensures Translate(s) != s
  {
    assert Translate(s)[0] != s[0];
  }
}

=== FILE: scenarios.dfy ===
/** Worked inputs of `detect_encoding`: the canonical spellings of "Hello"
    in the six encodings, a plain sentence, and the Base64 pad bits the
    re-encoding guard inspects. Each one is carried through the detectors
    and the dispatcher. */
module Scenarios {
  import opened Ascii
  import opened Wrappers
  import Utf8
  import Base64Codec
  import Base16
  import Bits
  import Percent
  import Rot13Cipher
  import MorseCode
  import opened TextDecoder

  // ------------------------------------------------------------ Rejections

  /** Base64 needs a length divisible by 4. */
  lemma Base64NeedsLength(text: string)
    requires |text| % 4 != 0
    ensures DetectBase64(text).None?
  {
  }

  /** Base64 needs every character but a final newline in its class. */
  lemma Base64NeedsClass(text: string, i: nat)
    requires i < |text| - 1 && !Base64Codec.IsBase64Char(text[i])
    ensures DetectBase64(text).None?
  {
  }

  /** Hex needs every character other than space and colon to be a
      hexadecimal digit. */
  lemma HexNeedsDigits(text: string, i: nat)
    requires i < |text| && !IsHexDigit(text[i]) && text[i] != ' ' && text[i] != ':'
    ensures DetectHex(text).None?
  {
    var lower := Lower(text);
    var clean := HexClean(text);
    assert lower[i] in multiset(lower);
    assert lower[i] in multiset(clean);
    var j :| 0 <= j < |clean| && clean[j] == lower[i];
    assert !IsLowerHexDigit(clean[j]);
  }

  /** Binary needs every character other than space to be `0` or `1`. */
  lemma BinaryNeedsBits(text: string, i: nat)
    requires i < |text| && !Bits.IsBit(text[i]) && text[i] != ' '
    ensures DetectBinary(text).None?
  {
    var clean := Remove(text, ' ');
    assert text[i] in text;
    var j :| 0 <= j < |clean| && clean[j] == text[i];
  }

  /** ROT13 needs every character to be a letter. */
  lemma Rot13NeedsLetters(text: string, i: nat)
    requires i < |text| && !IsLetter(text[i])
    ensures DetectRot13(text).None?
  {
  }

  /** Morse needs every character to be `.`, `-`, space or `/`. */
  lemma MorseNeedsMorseChars(text: string, i: nat)
    requires i < |text| && !MorseCode.IsMorseChar(text[i])
    ensures DetectMorse(text).None?
  {
  }

  // ------------------------------------------------------ Later detectors

  /** A URL match after three failures is reported. */
  lemma UrlReported(text: string)
    requires DetectBase64(text).None? && DetectHex(text).None? && DetectBinary(text).None?
    requires DetectUrl(text).Some?
    ensures DetectEncoding(text) == DetectUrl(text).value
  {
    SixSkipThree(DetectBase64(text), DetectHex(text), DetectBinary(text),
                 DetectUrl(text), DetectRot13(text), DetectMorse(text), text);
  }

  /** A ROT13 match after four failures is reported. */
  lemma Rot13Reported(text: string)
    requires DetectBase64(text).None? && DetectHex(text).None? && DetectBinary(text).None?
    requires DetectUrl(text).None? && DetectRot13(text).Some?
    ensures DetectEncoding(text) == DetectRot13(text).value
  {
    SixSkipThree(DetectBase64(text), DetectHex(text), DetectBinary(text),
                 DetectUrl(text), DetectRot13(text), DetectMorse(text), text);
  }

  /** A Morse match after five failures is reported. */
  lemma MorseReported(text: string)
    requires DetectBase64(text).None? && DetectHex(text).None? && DetectBinary(text).None?
    requires DetectUrl(text).None? && DetectRot13(text).None? && DetectMorse(text).Some?
    ensures DetectEncoding(text) == DetectMorse(text).value
  {
    var d, e, f := DetectUrl(text), DetectRot13(text), DetectMorse(text);
    SixSkipThree(DetectBase64(text), DetectHex(text), DetectBinary(text), d, e, f, text);
    assert [d, e, f][1..] == [e, f] && [e, f][1..] == [f];
  }

  // ------------------------------------------------------- Character tests

  /** Every character has a code point of at least 32: a recursive test
      the verifier can evaluate on a literal. */
  predicate Printable(s: string) {
    |s| == 0 || (s[0] as int >= 32 && Printable(s[1..]))
  }

  /** The recursive test agrees with the quantified one. */
  lemma {:induction false} PrintableAll(s: string)
    requires Printable(s)
    ensures forall i | 0 <= i < |s| :: s[i] as int >= 32
  {
    if |s| > 0 {
      PrintableAll(s[1..]);
      assert forall i | 1 <= i < |s| :: s[i] == s[1..][i - 1];
    }
  }

  /** Every character of "Hello" is readable and below 256. */
  lemma HelloReadable()
    ensures forall k | 0 <= k < |"Hello"| :: "Hello"[k] as int < 256 && IsReadable("Hello"[k])
  {
    var s := "Hello";
    forall k | 0 <= k < |s| ensures s[k] as int < 256 && IsReadable(s[k]) {
      assert k == 0 || k == 1 || k == 2 || k == 3 || k == 4;
    }
  }

  // ----------------------------------------------------------------- Hello

  /** The UTF-8 bytes of "Hello", which is ASCII. */
  lemma HelloBytes()
    ensures Utf8.Encode("Hello") == [0x48, 0x65, 0x6c, 0x6c, 0x6f]
  {
    var s := "Hello";
    assert s[1..] == "ello" && s[2..] == "llo" && s[3..] == "lo" && s[4..] == "o" && s[5..] == "";
    assert Utf8.EncodeScalar('o') == [0x6f];
    assert Utf8.EncodeScalar('l') == [0x6c];
    assert Utf8.EncodeScalar('e') == [0x65];
    assert Utf8.EncodeScalar('H') == [0x48];
  }

  // ---------------------------------------------------------------- Base64

  /** The Base64 spelling of "Hello". */
  lemma Base64SpellingOfHello()
    ensures Base64Codec.Encode(Utf8.Encode("Hello")) == "SGVsbG8="
  {
    var b: seq<byte> := [0x48, 0x65, 0x6c, 0x6c, 0x6f];
    HelloBytes();
    Base64Codec.EncodeCons(b);
    assert b[3..] == [0x6c, 0x6f];
    HelGroup();
    LoPair();
  }

  /** The first group: "Hel" is `SGVs`. */
  lemma HelGroup()
    ensures Base64Codec.EncodeGroup(0x48, 0x65, 0x6c) == "SGVs"
  {
    assert Base64Codec.EncodeGroup(0x48, 0x65, 0x6c)
        == [Base64Codec.CharOf(18), Base64Codec.CharOf(6), Base64Codec.CharOf(21), Base64Codec.CharOf(44)];
  }

  /** The final pair: "lo" is `bG8=`. */
  lemma LoPair()
    ensures Base64Codec.EncodeTwo(0x6c, 0x6f) == "bG8="
  {
    assert Base64Codec.EncodeTwo(0x6c, 0x6f)
        == [Base64Codec.CharOf(27), Base64Codec.CharOf(6), Base64Codec.CharOf(60), '='];
  }

  /** `"SGVsbG8="` is reported as Base64 "Hello". */
  lemma Base64OfHello()
    ensures DetectEncoding("SGVsbG8=") == Detection(Base64, "Hello")
  {
    Base64SpellingOfHello();
    DetectBase64OfEncoding("Hello");
    SixFirst(DetectBase64("SGVsbG8="), DetectHex("SGVsbG8="), DetectBinary("SGVsbG8="),
             DetectUrl("SGVsbG8="), DetectRot13("SGVsbG8="), DetectMorse("SGVsbG8="), "SGVsbG8=");
  }

  /** The re-encoding guard rejects a final quad whose unused bits before
      `=` are not zero, although the decoder alone accepts it. */
  lemma Base64RejectsPadBits(text: string)
    requires |text| >= 4
    requires || (&& text[|text| - 1] == '=' && text[|text| - 2] == '='
                 && Base64Codec.IsAlphabetChar(text[|text| - 3])
                 && Base64Codec.ValueOf(text[|text| - 3]) % 16 != 0)
             || (&& text[|text| - 1] == '='
                 && Base64Codec.IsAlphabetChar(text[|text| - 2])
                 && Base64Codec.ValueOf(text[|text| - 2]) % 4 != 0)
    ensures DetectBase64(text).None?
  {
    if DetectBase64(text).Some? {
      DetectBase64Sound(text);
      Base64Codec.EncodePadBits(Utf8.Encode(DetectBase64(text).value.decoded));
    }
  }

  /** `QQ==` is the canonical spelling of "A" and is detected; `QR==`
      decodes to the same byte, but its pad bits are set, so the detector
      rejects it. */
  lemma Base64PadBitsOfA()
    ensures DetectBase64("QQ==") == Some(Detection(Base64, "A"))
    ensures Base64Codec.Decode("QR==") == Some([0x41])
    ensures DetectBase64("QR==").None?
  {
    assert Utf8.Encode("A") == [0x41];
    assert Base64Codec.EncodeOne(0x41) == [Base64Codec.CharOf(16), Base64Codec.CharOf(16), '=', '='];
    DetectBase64OfEncoding("A");
    assert Base64Codec.ValueOf('Q') == 16 && Base64Codec.ValueOf('R') == 17;
    Base64RejectsPadBits("QR==");
  }

  // ------------------------------------------------------------------- Hex

  /** The lower-case hex spelling of "Hello". */
  lemma HexSpellingOfHello()
    ensures Base16.Encode([0x48, 0x65, 0x6c, 0x6c, 0x6f]) == "48656c6c6f"
  {
    var b: seq<byte> := [0x48, 0x65, 0x6c, 0x6c, 0x6f];
    assert Base16.Encode(b[4..]) == "6f";
    assert Base16.Encode(b[3..]) == "6c6f";
    assert Base16.Encode(b[2..]) == "6c6c6f";
    assert Base16.Encode(b[1..]) == "656c6c6f";
  }

  /** `"48656c6c6f"` is reported as Hex "Hello". */
  lemma HexOfHello()
    ensures DetectEncoding("48656c6c6f") == Detection(Hex, "Hello")
  {
    HelloBytes();
    HexSpellingOfHello();
    DetectHexOfEncoding("Hello");
    Base64NeedsLength("48656c6c6f");
    HexWinsOverLater("48656c6c6f");
  }

  // ---------------------------------------------------------------- Binary

  /** `01001000 01100101 01101100 01101100 01101111`: the 8-digit groups of
      "Hello" separated by spaces. */
  const SpacedBits: string :=
    "01001000" + " " + ("01100101" + " " + ("01101100" + " " + ("01101100" + " " + "01101111")))

  /** The binary detector reads `SpacedBits` as "Hello". */
  lemma BinaryOfHello()
    ensures DetectBinary(SpacedBits) == Some(Detection(Binary, "Hello"))
  {
    BitsOfHello();
    HelloReadable();
    SpacedBinary(SpacedBits, "Hello");
  }

  /** The dispatcher nevertheless reports `SpacedBits` as Hex, because the
      hex detector is tried first and accepts every run of binary digits of
      even length. */
  lemma BinaryOfHelloReported()
    ensures DetectEncoding(SpacedBits).encoding == Hex
  {
    SpacedBitsNotBase64();
    BinaryOfHello();
    BinaryImpliesHex(SpacedBits);
    HexWinsOverLater(SpacedBits);
  }

  /** Under the corrected order the same input is reported as Binary
      "Hello". */
  lemma BinaryOfHelloCorrected()
    ensures DetectEncodingCorrected(SpacedBits) == Detection(Binary, "Hello")
  {
    SpacedBitsNotBase64();
    BinaryOfHello();
    CorrectedReportsBinary(SpacedBits);
  }

  /** A space is no Base64 character. */
  lemma SpacedBitsNotBase64()
    ensures DetectBase64(SpacedBits).None?
  {
    assert SpacedBits[8] == ' ';
    Base64NeedsClass(SpacedBits, 8);
  }

  /** A text whose space-free form is the 8-digit groups of a non-empty
      readable text is read by the binary detector as that text. */
  lemma SpacedBinary(text: string, t: string)
    requires |t| > 0 && forall k | 0 <= k < |t| :: t[k] as int < 256 && IsReadable(t[k])
    requires Remove(text, ' ') == Bits.EncodeGroups(t)
    ensures DetectBinary(text) == Some(Detection(Binary, t))
  {
    var clean := Remove(text, ' ');
    Bits.DecodeEncodeGroups(t);
    assert AllReadable(t);
    assert |clean| > 0 && |clean| % 8 == 0;
  }

  /** Without its spaces, `SpacedBits` is the 8-digit groups of "Hello". */
  lemma BitsOfHello()
    ensures Remove(SpacedBits, ' ') == Bits.EncodeGroups("Hello")
  {
    assert ' ' !in "01001000";
    assert ' ' !in "01100101";
    assert ' ' !in "01101100";
    assert ' ' !in "01101111";
    RemoveSpaces("01001000", "01100101", "01101100", "01101111");
    GroupsOfHello();
  }

  /** The 8-digit groups of "Hello", one per letter. */
  lemma GroupsOfHello()
    ensures Bits.EncodeGroups("Hello") == "01001000" + ("01100101" + ("01101100" + ("01101100" + "01101111")))
  {
    GroupOfH();
    GroupOfE();
    GroupOfL();
    GroupOfO();
  }

  /** The 8-digit groups of the letters of "Hello". */
  lemma GroupOfH() ensures Bits.Pow2(8) == 256 && Bits.ToBinary(72, 8) == "01001000" { }
  lemma GroupOfE() ensures Bits.Pow2(8) == 256 && Bits.ToBinary(101, 8) == "01100101" { }
  lemma GroupOfL() ensures Bits.Pow2(8) == 256 && Bits.ToBinary(108, 8) == "01101100" { }
  lemma GroupOfO() ensures Bits.Pow2(8) == 256 && Bits.ToBinary(111, 8) == "01101111" { }

  /** Removing the four separating spaces of five space-free groups. */
  lemma RemoveSpaces(h: string, e: string, l: string, o: string)
    requires ' ' !in h && ' ' !in e && ' ' !in l && ' ' !in o
    ensures Remove(h + " " + (e + " " + (l + " " + (l + " " + o))), ' ') == h + (e + (l + (l + o)))
  {
    DropSpace(h, e + " " + (l + " " + (l + " " + o)));
    DropSpace(e, l + " " + (l + " " + o));
    DropSpace(l, l + " " + o);
    DropSpace(l, o);
  }

  /** Removing the space after a space-free group. */
  lemma DropSpace(a: string, b: string)
    requires ' ' !in a
    ensures Remove(a + " " + b, ' ') == a + Remove(b, ' ')
  {
    RemoveAppend(a + " ", b, ' ');
    RemoveAppend(a, " ", ' ');
  }

  // ------------------------------------------------------------------- URL

  /** Text without `%` passes through percent-decoding unchanged, whatever
      follows it. */
  lemma {:induction false} UnquotePlain(a: string, b: string)
    requires '%' !in a
    ensures Percent.UnquoteFrom(a + b, []) == a + Percent.UnquoteFrom(b, [])
    decreases |a|
  {
    if |a| > 0 {
      var s := a + b;
      assert s[0] == a[0] && s[1..] == a[1..] + b;
      assert !Percent.StartsWithEscape(s);
      assert Utf8.DecodeLossy([]) == [];
      UnquotePlain(a[1..], b);
      assert a == [a[0]] + a[1..];
    } else {
      assert a + b == b;
    }
  }

  /** Text without `%` is its own percent-decoding. */
  lemma UnquoteNoPercent(s: string)
    requires '%' !in s
    ensures Percent.UnquoteFrom(s, []) == s
  {
    UnquotePlain(s, []);
    assert s + [] == s;
    assert Utf8.DecodeLossy([]) == [];
  }

  /** The escape `%20` in front of a text without `%` decodes to a space. */
  lemma EscapedSpace(w: string)
    requires '%' !in w && |w| > 0
    ensures Percent.UnquoteFrom("%20" + w, []) == " " + w
  {
    var e := "%20" + w;
    var rest := w[1..];
    assert w[0] in w && forall c | c in rest :: c in w;
    SpaceEscapeStep(w);
    LiteralStep(w, [0x20]);
    LossySpace();
    UnquoteNoPercent(rest);
    SpaceCons(w);
  }

  /** The escape `%20` becomes the pending byte 0x20. */
  lemma SpaceEscapeStep(w: string)
    ensures Percent.UnquoteFrom("%20" + w, []) == Percent.UnquoteFrom(w, [0x20])
  {
    var e := "%20" + w;
    var none: seq<byte> := [];
    SpaceByte(e);
    EscapeStep(e, none);
    assert none + [Percent.EscapedByte(e)] == [0x20];
    assert e[3..] == w;
  }

  /** Prepending a space to a non-empty text, one character at a time. */
  lemma SpaceCons(w: string)
    requires |w| > 0
    ensures " " + [w[0]] + w[1..] == " " + w
  {
    assert w == [w[0]] + w[1..];
  }

  /** An escape moves its byte to the pending run. */
  lemma EscapeStep(e: string, pending: seq<byte>)
    requires Percent.StartsWithEscape(e)
    ensures Percent.UnquoteFrom(e, pending) == Percent.UnquoteFrom(e[3..], pending + [Percent.EscapedByte(e)])
  {
  }

  /** A literal character flushes the pending run and is copied. */
  lemma LiteralStep(w: string, pending: seq<byte>)
    requires |w| > 0 && w[0] != '%'
    ensures Percent.UnquoteFrom(w, pending) == Utf8.DecodeLossy(pending) + [w[0]] + Percent.UnquoteFrom(w[1..], [])
  {
  }

  /** The escape `%20` stands for the byte 0x20. */
  lemma SpaceByte(e: string)
    requires |e| >= 3 && e[0] == '%' && e[1] == '2' && e[2] == '0'
    ensures Percent.StartsWithEscape(e) && Percent.EscapedByte(e) == 0x20
  {
  }

  /** The byte 0x20 decodes to a space. */
  lemma LossySpace()
    ensures Utf8.DecodeLossy([0x20]) == " "
  {
    var b: seq<byte> := [0x20];
    assert b[1..] == [];
  }

  /** `unquote` is the decoding from an empty run of pending bytes. */
  lemma UnquoteIsFrom(s: string)
    ensures Percent.Unquote(s) == Percent.UnquoteFrom(s, [])
  {
  }

  /** A space written as `%20` between two texts without `%` is detected as
      URL encoding when the result has no control character. */
  lemma UrlOfSpace(a: string, w: string)
    requires '%' !in a && '%' !in w && |w| > 0
    requires Printable(a + " " + w)
    ensures DetectUrl(a + "%20" + w) == Some(Detection(UrlEncoding, a + " " + w))
  {
    var s, d := a + "%20" + w, a + " " + w;
    UnquoteOfSpace(a, w);
    assert s[|a|] == '%';
    PrintableAll(d);
    UrlOfDecoded(s, d);
  }

  /** Percent-decoding of a `%20` between two texts without `%`. */
  lemma UnquoteOfSpace(a: string, w: string)
    requires '%' !in a && '%' !in w && |w| > 0
    ensures Percent.Unquote(a + "%20" + w) == a + " " + w
  {
    var e := "%20" + w;
    assert a + "%20" + w == a + e;
    UnquotePlain(a, e);
    EscapedSpace(w);
    UnquoteIsFrom(a + e);
  }

  /** A text with `%` whose percent-decoding differs from it and has no
      control character is detected as URL encoding. */
  lemma UrlOfDecoded(s: string, d: string)
    requires '%' in s && Percent.Unquote(s) == d && d != s
    requires forall i | 0 <= i < |d| :: d[i] as int >= 32
    ensures DetectUrl(s) == Some(Detection(UrlEncoding, d))
  {
  }

  /** `"Hello%20World"` is reported as URL Encoding "Hello World". */
  lemma UrlOfHello()
    ensures DetectEncoding("Hello%20World") == Detection(UrlEncoding, "Hello World")
  {
    HelloWorldPieces();
    UrlOfSpaceReported("Hello%20World", "Hello", "World");
  }

  /** The pieces of "Hello%20World" and of its decoding. */
  lemma HelloWorldPieces()
    ensures '%' !in "Hello" && '%' !in "World" && Printable("Hello" + " " + "World")
    ensures "Hello" + " " + "World" == "Hello World"
    ensures "Hello" + "%20" + "World" == "Hello%20World"
  {
    HelloWorldJoin();
    HelloWorldPrintable();
    NoPercent("Hello");
    NoPercent("World");
  }

  /** "Hello%20World" and "Hello World" as concatenations of their words. */
  lemma HelloWorldJoin()
    ensures "Hello" + " " + "World" == "Hello World"
    ensures "Hello" + "%20" + "World" == "Hello%20World"
  {
  }

  /** "Hello World" has no control character. */
  lemma HelloWorldPrintable()
    ensures Printable("Hello" + " " + "World")
  {
    HelloWorldJoin();
    assert Printable("Hello World");
  }

  /** A five-letter word has no `%`. */
  lemma NoPercent(s: string)
    requires |s| == 5 && IsLetter(s[0]) && IsLetter(s[1]) && IsLetter(s[2]) && IsLetter(s[3]) && IsLetter(s[4])
    ensures '%' !in s
  {
    forall k | 0 <= k < |s| ensures s[k] != '%' {
      assert k == 0 || k == 1 || k == 2 || k == 3 || k == 4;
    }
  }

  /** A `%20` text is reported as URL encoding when its length rules out
      Base64 and its first character rules out hex and binary. */
  lemma UrlOfSpaceReported(s: string, a: string, w: string)
    requires s == a + "%20" + w && '%' !in a && '%' !in w && |w| > 0
    requires Printable(a + " " + w)
    requires |s| % 4 != 0
    requires |s| > 0 && !IsHexDigit(s[0]) && !Bits.IsBit(s[0]) && s[0] != ' ' && s[0] != ':'
    ensures DetectEncoding(s) == Detection(UrlEncoding, a + " " + w)
  {
    UrlOfSpace(a, w);
    Base64NeedsLength(s);
    HexNeedsDigits(s, 0);
    BinaryNeedsBits(s, 0);
    UrlReported(s);
  }

  // ----------------------------------------------------------------- ROT13

  /** `"Uryyb"` is reported as ROT13 "Hello". */
  lemma Rot13OfHello()
    ensures DetectEncoding("Uryyb") == Detection(Rot13, "Hello")
  {
    Rot13DetectsHello();
    Base64NeedsLength("Uryyb");
    HexNeedsDigits("Uryyb", 0);
    BinaryNeedsBits("Uryyb", 0);
    assert DetectUrl("Uryyb").None? by {
      assert '%' !in "Uryyb";
    }
    Rot13Reported("Uryyb");
  }

  /** ROT13 turns "Uryyb" back into "Hello". */
  lemma Rot13DetectsHello()
    ensures DetectRot13("Uryyb") == Some(Detection(Rot13, "Hello"))
  {
    assert Rot13Cipher.Translate("Uryyb") == "Hello";
  }

  // ----------------------------------------------------------------- Morse

  /** `.... . .-.. .-.. ---`: the Morse codes of "HELLO" separated by
      spaces. */
  const HelloMorse: string := "...." + " " + ("." + " " + (".-.." + " " + (".-.." + " " + "---")))

  /** The Morse spelling of "HELLO". */
  lemma MorseSpellingOfHello()
    ensures (forall i | 0 <= i < |"HELLO"| :: MorseCode.IsPlainChar("HELLO"[i]))
    ensures MorseCode.Encode("HELLO") == HelloMorse
  {
    var t := "HELLO";
    forall i | 0 <= i < |t| ensures MorseCode.IsPlainChar(t[i]) {
      assert i == 0 || i == 1 || i == 2 || i == 3 || i == 4;
    }
    var codes := MorseCode.Codes(t);
    assert codes == ["....", ".", ".-..", ".-..", "---"];
    assert codes[1..] == [".", ".-..", ".-..", "---"];
    assert codes[2..] == [".-..", ".-..", "---"];
    assert codes[3..] == [".-..", "---"];
    assert codes[4..] == ["---"];
  }

  /** `HelloMorse` is reported as Morse "HELLO". */
  lemma MorseOfHello()
    ensures DetectEncoding(HelloMorse) == Detection(Morse, "HELLO")
  {
    MorseDetectsHello();
    MorseRejectedEarly();
    MorseRejectedLate();
    MorseReported(HelloMorse);
  }

  /** The Morse detector decodes `HelloMorse` to "HELLO". */
  lemma MorseDetectsHello()
    ensures DetectMorse(HelloMorse) == Some(Detection(Morse, "HELLO"))
  {
    MorseSpellingOfHello();
    assert IsAlnum("HELLO"[0]);
    DetectMorseOfEncoding("HELLO");
  }

  /** A leading `.` is no Base64, hex or binary character. */
  lemma MorseRejectedEarly()
    ensures DetectBase64(HelloMorse).None? && DetectHex(HelloMorse).None?
    ensures DetectBinary(HelloMorse).None?
  {
    assert HelloMorse[0] == '.';
    Base64NeedsClass(HelloMorse, 0);
    HexNeedsDigits(HelloMorse, 0);
    BinaryNeedsBits(HelloMorse, 0);
  }

  /** Morse code has no `%` and no letter. */
  lemma MorseRejectedLate()
    ensures DetectUrl(HelloMorse).None? && DetectRot13(HelloMorse).None?
  {
    assert HelloMorse[0] == '.';
    Rot13NeedsLetters(HelloMorse, 0);
    forall k | 0 <= k < |HelloMorse| ensures HelloMorse[k] != '%' {
      assert MorseCode.IsMorseChar(HelloMorse[k]);
    }
  }

  // ------------------------------------------------------------ Plain text

  /** `"just plain text"` matches no detector and is reported as Unknown,
      unchanged. */
  lemma PlainText()
    ensures DetectEncoding("just plain text") == Detection(Unknown, "just plain text")
  {
    PlainRejectedEarly();
    PlainRejectedLate();
  }

  /** Odd length; `j` is no hex digit and no bit. */
  lemma PlainRejectedEarly()
    ensures DetectBase64("just plain text").None?
    ensures DetectHex("just plain text").None?
    ensures DetectBinary("just plain text").None?
  {
    Base64NeedsLength("just plain text");
    HexNeedsDigits("just plain text", 0);
    BinaryNeedsBits("just plain text", 0);
  }

  /** No `%`; a space is no letter; `j` is no Morse character. */
  lemma PlainRejectedLate()
    ensures DetectUrl("just plain text").None?
    ensures DetectRot13("just plain text").None?
    ensures DetectMorse("just plain text").None?
  {
    assert '%' !in "just plain text";
    assert "just plain text"[4] == ' ';
    Rot13NeedsLetters("just plain text", 4);
    MorseNeedsMorseChars("just plain text", 0);
  }
}

=== FILE: textdecoder.dfy ===
/** The `TextDecoder` class: six detectors, each testing one encoding
    hypothesis and returning the decoded text or "no match", and the
    dispatcher that tries them in a fixed order. */
module TextDecoder {
  import opened Ascii
  import opened Wrappers
  import Utf8
  import Base64Codec
  import Base16
  import Bits
  import Percent
  import Rot13Cipher
  import MorseCode

  /** The encodings the dispatcher can report. */
  datatype Encoding = Base64 | Hex | Binary | UrlEncoding | Rot13 | Morse | Unknown

  /** The label string the source returns for each encoding. */
  function Label(e: Encoding): string {
    match e
    case Base64 => "Base64"
    case Hex => "Hex"
    case Binary => "Binary"
    case UrlEncoding => "URL Encoding"
    case Rot13 => "ROT13"
    case Morse => "Morse"
    case Unknown => "Unknown"
  }

  /** The `(label, decoded)` pair a detector or the dispatcher returns. */
  datatype Detection = Detection(encoding: Encoding, decoded: string)

  // ---------------------------------------------------------------- Base64

  /** `re.match(r'^[A-Za-z0-9+/=]+$', text)`: one or more characters of the
      class, where `$` also matches just before a final newline. */
  predicate MatchesBase64Class(s: string)
    ensures MatchesBase64Class(s) <==>
              && |s| > 0
              && (forall i | 0 <= i < |s| - 1 :: Base64Codec.IsBase64Char(s[i]))
              && (Base64Codec.IsBase64Char(s[|s| - 1]) || (|s| > 1 && s[|s| - 1] == '\n'))
  {
    || (|s| > 0 && forall i | 0 <= i < |s| :: Base64Codec.IsBase64Char(s[i]))
    || (|s| > 1 && s[|s| - 1] == '\n' && forall i | 0 <= i < |s| - 1 :: Base64Codec.IsBase64Char(s[i]))
  }

  /** `detect_base64`: a strict decode, then strict UTF-8, then the guard
      that re-encoding the bytes reproduces the input exactly. */
  function DetectBase64(text: string): (r: Option<Detection>)
    ensures r.Some? ==> r.value.encoding == Base64
  {
    if |text| % 4 != 0 || !MatchesBase64Class(text) then None
    else
      match Base64Codec.Decode(text)
      case None => None
      case Some(bytes) =>
        match Utf8.Decode(bytes)
        case None => None
        case Some(decoded) =>
          if Base64Codec.Encode(bytes) == text then Some(Detection(Base64, decoded))
          else None
  }

  /** What a Base64 match guarantees: a non-empty input of a length divisible
      by 4 over `[A-Za-z0-9+/=]` that is exactly the Base64 encoding of the
      UTF-8 bytes of the decoded text. */
  lemma DetectBase64Sound(text: string)
    requires DetectBase64(text).Some?
    ensures |text| > 0 && |text| % 4 == 0
    ensures forall i | 0 <= i < |text| :: Base64Codec.IsBase64Char(text[i])
    ensures Base64Codec.Encode(Utf8.Encode(DetectBase64(text).value.decoded)) == text
  {
    Utf8.EncodeDecode(Base64Codec.Decode(text).value);
  }

  /** The Base64 detector accepts exactly the canonical Base64 encodings of
      non-empty well-formed UTF-8, and returns the text those bytes spell. */
  lemma DetectBase64Exactly(text: string, t: string)
    ensures DetectBase64(text) == Some(Detection(Base64, t))
        <==> |t| > 0 && text == Base64Codec.Encode(Utf8.Encode(t))
  {
    if |t| > 0 && text == Base64Codec.Encode(Utf8.Encode(t)) {
      DetectBase64OfEncoding(t);
    }
    if DetectBase64(text) == Some(Detection(Base64, t)) {
      DetectBase64Sound(text);
      assert |Utf8.Encode(t)| > 0;
    }
  }

  /** Round trip: the Base64 detector decodes the Base64 encoding of the
      UTF-8 bytes of any non-empty text back to that text. */
  lemma DetectBase64OfEncoding(t: string)
    requires |t| > 0
    ensures DetectBase64(Base64Codec.Encode(Utf8.Encode(t))) == Some(Detection(Base64, t))
  {
    var bytes := Utf8.Encode(t);
    var text := Base64Codec.Encode(bytes);
    Base64Codec.DecodeEncode(bytes);
    Utf8.DecodeEncode(t);
    assert |text| > 0 && |text| % 4 == 0;
    assert MatchesBase64Class(text);
    assert Base64Codec.Decode(text) == Some(bytes);
    assert Utf8.Decode(bytes) == Some(t);
    assert !(|text| % 4 != 0 || !MatchesBase64Class(text));
    var r := DetectBase64(text);
    assert r.Some? && r.value.decoded == t;
  }

  // ------------------------------------------------------------------- Hex

  /** `text.lower().replace(' ', '').replace(':', '')`. */
  function HexClean(text: string): (clean: string)
    ensures |clean| <= |text|
    ensures multiset(clean) == multiset(Lower(text))[' ' := 0][':' := 0]
    ensures forall i | 0 <= i < |clean| :: !IsUpper(clean[i]) && clean[i] != ' ' && clean[i] != ':'
    ensures (forall i | 0 <= i < |text| :: !IsUpper(text[i]) && text[i] != ' ' && text[i] != ':') ==> clean == text
  {
    var lower := Lower(text);
    assert forall i | 0 <= i < |lower| :: !IsUpper(lower[i]);
    assert (forall i | 0 <= i < |text| :: !IsUpper(text[i])) ==> lower == text;
    var clean := Remove(Remove(lower, ' '), ':');
    assert forall i | 0 <= i < |clean| :: clean[i] in clean && clean[i] in lower;
    clean
  }

  /** `detect_hex`: the cleaned text must be a non-empty, even-length run of
      `[0-9a-f]`; its bytes must be well-formed UTF-8. */
  function DetectHex(text: string): (r: Option<Detection>)
    ensures r.Some? ==> r.value.encoding == Hex
  {
    var clean := HexClean(text);
    if !(|clean| > 0 && forall i | 0 <= i < |clean| :: IsLowerHexDigit(clean[i])) || |clean| % 2 != 0 then None
    else
      match Base16.Decode(clean)
      case None => None
      case Some(bytes) =>
        match Utf8.Decode(bytes)
        case None => None
        case Some(decoded) => Some(Detection(Hex, decoded))
  }

  /** What a hex match guarantees: the cleaned text is a non-empty,
      even-length run of `[0-9a-f]`, twice as long as the UTF-8 bytes of the
      decoded text, and it is their lower-case hex spelling. */
  lemma DetectHexSound(text: string)
    requires DetectHex(text).Some?
    ensures var clean := HexClean(text);
              && |clean| > 0 && |clean| % 2 == 0
              && (forall i | 0 <= i < |clean| :: IsLowerHexDigit(clean[i]))
              && 2 * |Utf8.Encode(DetectHex(text).value.decoded)| == |clean|
              && Base16.Encode(Utf8.Encode(DetectHex(text).value.decoded)) == clean
  {
    var clean := HexClean(text);
    var bytes := Base16.Decode(clean).value;
    Utf8.EncodeDecode(bytes);
    Base16.EncodeDecode(clean);
    assert Lower(clean) == clean;
  }

  /** Round trip: the hex detector decodes the lower-case hex spelling of
      the UTF-8 bytes of any non-empty text back to that text. */
  lemma DetectHexOfEncoding(t: string)
    requires |t| > 0
    ensures DetectHex(Base16.Encode(Utf8.Encode(t))) == Some(Detection(Hex, t))
  {
    var bytes := Utf8.Encode(t);
    var text := Base16.Encode(bytes);
    assert |text| == 2 * |bytes| && |bytes| > 0;
    HexCleanOfDigits(text);
    Base16.DecodeEncode(bytes);
    Utf8.DecodeEncode(t);
    DetectHexOfClean(text, bytes, t);
  }

  /** The hex detector's acceptance path: a cleaned text of hex digits whose
      bytes are valid UTF-8 is detected as the decoded text. */
  lemma DetectHexOfClean(text: string, bytes: seq<byte>, t: string)
    requires |HexClean(text)| > 0 && |HexClean(text)| % 2 == 0
    requires forall i | 0 <= i < |HexClean(text)| :: IsLowerHexDigit(HexClean(text)[i])
    requires Base16.Decode(HexClean(text)) == Some(bytes)
    requires Utf8.Decode(bytes) == Some(t)
    ensures DetectHex(text) == Some(Detection(Hex, t))
  {
  }

  /** Cleaning leaves a run of lower-case hexadecimal digits alone. */
  lemma HexCleanOfDigits(text: string)
    requires forall i | 0 <= i < |text| :: IsLowerHexDigit(text[i])
    ensures HexClean(text) == text
  {
    assert Lower(text) == text;
    assert ' ' !in text && ':' !in text;
  }

  // ---------------------------------------------------------------- Binary

  /** The readability filter: no code point below 32 other than newline,
      carriage return and tab. */
  predicate IsReadable(c: char) {
    c as int >= 32 || c == '\n' || c == '\r' || c == '\t'
  }

  /** No character of `s` is an unwanted control character. */
  predicate AllReadable(s: string) {
    forall i | 0 <= i < |s| :: IsReadable(s[i])
  }

  /** `detect_binary`: the text without spaces must be a non-empty run of
      `[01]` whose length is a multiple of 8; every group of eight digits
      becomes one code point, and the result must be readable. */
  function DetectBinary(text: string): (r: Option<Detection>)
    ensures r.Some? ==> r.value.encoding == Binary
  {
    var clean := Remove(text, ' ');
    if !(|clean| > 0 && forall i | 0 <= i < |clean| :: Bits.IsBit(clean[i])) || |clean| % 8 != 0 then None
    else
      var decoded := Bits.DecodeGroups(clean);
      if !AllReadable(decoded) then None
      else Some(Detection(Binary, decoded))
  }

  /** What a binary match guarantees: the space-stripped text is a non-empty
      run of `[01]` of a length divisible by 8, the decoded text has one
      readable character below 256 per group, and its groups give the
      stripped text back. */
  lemma DetectBinarySound(text: string)
    requires DetectBinary(text).Some?
    ensures var clean := Remove(text, ' ');
              var t := DetectBinary(text).value.decoded;
              && |clean| > 0 && |clean| % 8 == 0
              && (forall i | 0 <= i < |clean| :: Bits.IsBit(clean[i]))
              && 8 * |t| == |clean|
              && (forall i | 0 <= i < |t| :: t[i] as int < 256 && IsReadable(t[i]))
              && Bits.EncodeGroups(t) == clean
  {
    Bits.EncodeDecodeGroups(Remove(text, ' '));
  }

  /** A run of binary digits of a length divisible by 8 that decodes to
      readable text is detected as that text. */
  lemma DetectBinaryOfDigits(text: string, t: string)
    requires |text| > 0 && |text| % 8 == 0
    requires forall i | 0 <= i < |text| :: Bits.IsBit(text[i])
    requires Bits.DecodeGroups(text) == t && AllReadable(t)
    ensures DetectBinary(text) == Some(Detection(Binary, t))
  {
    NoSpaceInBits(text);
  }

  /** Round trip: the binary detector decodes the 8-digit groups of any
      non-empty readable text of code points below 256 back to that text. */
  lemma DetectBinaryOfEncoding(t: string)
    requires |t| > 0
    requires forall i | 0 <= i < |t| :: t[i] as int < 256 && IsReadable(t[i])
    ensures DetectBinary(Bits.EncodeGroups(t)) == Some(Detection(Binary, t))
  {
    var text := Bits.EncodeGroups(t);
    Bits.DecodeEncodeGroups(t);
    assert AllReadable(t);
    DetectBinaryOfDigits(text, t);
  }

  /** Removing spaces leaves a run of binary digits alone. */
  lemma NoSpaceInBits(text: string)
    requires forall i | 0 <= i < |text| :: Bits.IsBit(text[i])
    ensures Remove(text, ' ') == text
  {
    assert ' ' !in text;
  }

  // ------------------------------------------------------------------- URL

  /** `detect_url_encoding`: the text must contain `%`, and percent-decoding
      must change it and produce no code point below 32. */
  function DetectUrl(text: string): (r: Option<Detection>)
    ensures r.Some? ==> r.value.encoding == UrlEncoding
  {
    if '%' !in text then None
    else
      var decoded := Percent.Unquote(text);
      if decoded != text && forall i | 0 <= i < |decoded| :: decoded[i] as int >= 32 then
        Some(Detection(UrlEncoding, decoded))
      else None
  }

  /** What a URL match guarantees: the input has a `%`, and the decoded text
      is its percent-decoding, differs from it, is shorter, and has no code
      point below 32. */
  lemma DetectUrlSound(text: string)
    requires DetectUrl(text).Some?
    ensures '%' in text
    ensures var t := DetectUrl(text).value.decoded;
              && t == Percent.Unquote(text) && t != text && |t| < |text|
              && forall i | 0 <= i < |t| :: t[i] as int >= 32
  {
    Percent.UnquoteShortens(text);
  }

  /** Round trip: the URL detector decodes the percent-encoding of any
      non-empty text without control characters back to that text. */
  lemma DetectUrlOfEncoding(t: string)
    requires |t| > 0
    requires forall i | 0 <= i < |t| :: t[i] as int >= 32
    ensures DetectUrl(Percent.Quote(t)) == Some(Detection(UrlEncoding, t))
  {
    var text := Percent.Quote(t);
    assert text[0] == '%';
    Percent.QuoteRoundTrip(t);
  }

  // ----------------------------------------------------------------- ROT13

  /** `detect_rot13`: the text must be non-empty and all letters, and the
      translation must change it. */
  function DetectRot13(text: string): (r: Option<Detection>)
    ensures r.Some? ==> r.value.encoding == Rot13
  {
    if !(|text| > 0 && forall i | 0 <= i < |text| :: IsLetter(text[i])) then None
    else
      var rot := Rot13Cipher.Translate(text);
      if rot != text then Some(Detection(Rot13, rot)) else None
  }

  /** The ROT13 detector matches exactly the non-empty runs of letters; the
      result has the same length, differs from the input, and rotates back
      to it. */
  lemma DetectRot13Sound(text: string)
    ensures DetectRot13(text).Some? <==> |text| > 0 && forall i | 0 <= i < |text| :: IsLetter(text[i])
    ensures DetectRot13(text).Some? ==>
              var t := DetectRot13(text).value.decoded;
              |t| == |text| && t != text && Rot13Cipher.Translate(t) == text
  {
    if |text| > 0 && forall i | 0 <= i < |text| :: IsLetter(text[i]) {
      Rot13Cipher.LettersChange(text);
      Rot13Cipher.Involution(text);
    }
  }

  /** Round trip: the ROT13 detector decodes the rotation of any non-empty
      run of letters back to that run. */
  lemma DetectRot13OfEncoding(t: string)
    requires |t| > 0 && forall i | 0 <= i < |t| :: IsLetter(t[i])
    ensures DetectRot13(Rot13Cipher.Translate(t)) == Some(Detection(Rot13, t))
  {
    var text := Rot13Cipher.Translate(t);
    Rot13Cipher.Involution(t);
    assert forall i | 0 <= i < |text| :: IsLetter(text[i]) by {
      forall i | 0 <= i < |text| ensures IsLetter(text[i]) {
        assert text[i] == Rot13Cipher.RotChar(t[i]);
      }
    }
    Rot13Cipher.LettersChange(text);
  }

  // ----------------------------------------------------------------- Morse

  /** `detect_morse`: the text must use only `.`, `-`, space and `/`; the
      decoding must be non-empty and contain a letter or digit. */
  function DetectMorse(text: string): (r: Option<Detection>)
    ensures r.Some? ==> r.value.encoding == Morse
  {
    if !(forall i | 0 <= i < |text| :: MorseCode.IsMorseChar(text[i])) then None
    else
      var decoded := MorseCode.Decode(text);
      if |decoded| > 0 && exists i | 0 <= i < |decoded| :: IsAlnum(decoded[i]) then Some(Detection(Morse, decoded))
      else None
  }

  /** What a Morse match guarantees: the input uses only `.`, `-`, space and
      `/`; the decoded text is the table decoding of its space-separated
      tokens, is non-empty, has a letter or digit, and holds only characters
      the table produces. */
  lemma DetectMorseSound(text: string)
    requires DetectMorse(text).Some?
    ensures forall i | 0 <= i < |text| :: MorseCode.IsMorseChar(text[i])
    ensures var t := DetectMorse(text).value.decoded;
              && t == MorseCode.DecodeTokens(MorseCode.Split(text))
              && |t| > 0 && (exists i | 0 <= i < |t| :: IsAlnum(t[i]))
              && |t| <= |MorseCode.Split(text)|
              && forall i | 0 <= i < |t| :: MorseCode.IsPlainChar(t[i])
  {
  }

  /** Round trip: the Morse detector decodes the Morse encoding of any text
      over the table's characters that has a letter or digit. */
  lemma DetectMorseOfEncoding(t: string)
    requires forall i | 0 <= i < |t| :: MorseCode.IsPlainChar(t[i])
    requires exists i | 0 <= i < |t| :: IsAlnum(t[i])
    ensures DetectMorse(MorseCode.Encode(t)) == Some(Detection(Morse, t))
  {
    MorseCode.EncodeMorseChars(t);
    MorseCode.DecodeEncode(t);
  }

  // ------------------------------------------------------------ Dispatcher

  /** Six detector results as a list, in the order they are tried. */
  function Six(a: Option<Detection>, b: Option<Detection>, c: Option<Detection>,
               d: Option<Detection>, e: Option<Detection>, f: Option<Detection>): seq<Option<Detection>>
  {
    [a, b, c, d, e, f]
  }

  /** The results of the detectors in the order `detect_encoding` lists
      them: Base64, Hex, Binary, URL, ROT13, Morse. The detectors are pure,
      so computing all of them and taking the first match is the same as
      calling them one by one and stopping at the first match. */
  function SourceResults(text: string): (rs: seq<Option<Detection>>)
    ensures |rs| == 6
    ensures forall k | 0 <= k < 6 :: rs[k].Some? ==> rs[k].value.encoding == SourceOrder[k]
  {
    SixInOrder(DetectBase64(text), DetectHex(text), DetectBinary(text),
               DetectUrl(text), DetectRot13(text), DetectMorse(text),
               Base64, Hex, Binary, UrlEncoding, Rot13, Morse);
    Six(DetectBase64(text), DetectHex(text), DetectBinary(text),
        DetectUrl(text), DetectRot13(text), DetectMorse(text))
  }

  /** Six results, each labelled by the matching entry of `order`. */
  lemma SixInOrder(a: Option<Detection>, b: Option<Detection>, c: Option<Detection>,
                   d: Option<Detection>, e: Option<Detection>, f: Option<Detection>,
                   oa: Encoding, ob: Encoding, oc: Encoding, od: Encoding, oe: Encoding, of: Encoding)
    requires a.Some? ==> a.value.encoding == oa
    requires b.Some? ==> b.value.encoding == ob
    requires c.Some? ==> c.value.encoding == oc
    requires d.Some? ==> d.value.encoding == od
    requires e.Some? ==> e.value.encoding == oe
    requires f.Some? ==> f.value.encoding == of
    ensures var rs := Six(a, b, c, d, e, f);
      forall k | 0 <= k < 6 :: rs[k].Some? ==> rs[k].value.encoding == [oa, ob, oc, od, oe, of][k]
  {
  }

  /** The order in which `detect_encoding` lists its detectors. */
  const SourceOrder: seq<Encoding> := [Base64, Hex, Binary, UrlEncoding, Rot13, Morse]

  /** The loop of `detect_encoding`: the first match in `rs`, or `Unknown`
      with the text unchanged when there is none. */
  function FirstMatch(rs: seq<Option<Detection>>, text: string): (r: Detection)
    ensures r == Detection(Unknown, text) || Some(r) in rs
  {
    if |rs| == 0 then Detection(Unknown, text)
    else if rs[0].Some? then rs[0].value
    else FirstMatch(rs[1..], text)
  }

  /** What the loop returns: `Unknown` with the text unchanged when nothing
      matches, and otherwise some match all of whose predecessors failed. */
  lemma {:induction false} FirstMatchSound(rs: seq<Option<Detection>>, text: string)
    ensures (forall k | 0 <= k < |rs| :: rs[k].None?) ==> FirstMatch(rs, text) == Detection(Unknown, text)
    ensures (exists k | 0 <= k < |rs| :: rs[k].Some?) ==>
              exists k | 0 <= k < |rs| :: rs[k] == Some(FirstMatch(rs, text)) && forall j | 0 <= j < k :: rs[j].None?
  {
    if |rs| > 0 && rs[0].None? {
      var tail := rs[1..];
      var r := FirstMatch(tail, text);
      FirstMatchSound(tail, text);
      if exists k | 0 <= k < |rs| :: rs[k].Some? {
        var k0 :| 0 <= k0 < |rs| && rs[k0].Some?;
        assert tail[k0 - 1].Some?;
        var k :| 0 <= k < |tail| && tail[k] == Some(r) && forall j | 0 <= j < k :: tail[j].None?;
        assert rs[k + 1] == Some(r);
        forall j | 0 <= j < k + 1 ensures rs[j].None? {
          if j > 0 {
            assert rs[j] == tail[j - 1];
          }
        }
      } else {
        forall k | 0 <= k < |tail| ensures tail[k].None? {
          assert tail[k] == rs[k + 1];
        }
      }
    }
  }

  /** `detect_encoding`: the first detector, in the source's order, that
      matches; `Unknown` with the text unchanged when none does. */
  function DetectEncoding(text: string): (r: Detection)
    ensures r.encoding == Unknown <==>
              && DetectBase64(text).None? && DetectHex(text).None? && DetectBinary(text).None?
              && DetectUrl(text).None? && DetectRot13(text).None? && DetectMorse(text).None?
    ensures r.encoding == Unknown ==> r.decoded == text
    ensures r.encoding != Unknown ==> Some(r) in SourceResults(text)
    ensures Label(r.encoding) in {"Base64", "Hex", "Binary", "URL Encoding", "ROT13", "Morse", "Unknown"}
  {
    FirstMatchOfSix(DetectBase64(text), DetectHex(text), DetectBinary(text),
                    DetectUrl(text), DetectRot13(text), DetectMorse(text), text);
    FirstMatch(SourceResults(text), text)
  }

  /** The loop over six results that are never labelled `Unknown`. */
  lemma FirstMatchOfSix(a: Option<Detection>, b: Option<Detection>, c: Option<Detection>,
                        d: Option<Detection>, e: Option<Detection>, f: Option<Detection>, text: string)
    requires a.Some? ==> a.value.encoding != Unknown
    requires b.Some? ==> b.value.encoding != Unknown
    requires c.Some? ==> c.value.encoding != Unknown
    requires d.Some? ==> d.value.encoding != Unknown
    requires e.Some? ==> e.value.encoding != Unknown
    requires f.Some? ==> f.value.encoding != Unknown
    ensures var r := FirstMatch(Six(a, b, c, d, e, f), text);
      && (r.encoding == Unknown <==> a.None? && b.None? && c.None? && d.None? && e.None? && f.None?)
      && (r.encoding == Unknown ==> r.decoded == text)
      && (r.encoding != Unknown ==> Some(r) in Six(a, b, c, d, e, f))
  {
    var rs := Six(a, b, c, d, e, f);
    var r := FirstMatch(rs, text);
    FirstMatchSound(rs, text);
    assert rs[0] == a && rs[1] == b && rs[2] == c && rs[3] == d && rs[4] == e && rs[5] == f;
    if !(a.None? && b.None? && c.None? && d.None? && e.None? && f.None?) {
      assert exists k | 0 <= k < |rs| :: rs[k].Some?;
      var k :| 0 <= k < |rs| && rs[k] == Some(r);
    }
  }

  /** A first result that matches is returned. */
  lemma SixFirst(a: Option<Detection>, b: Option<Detection>, c: Option<Detection>,
                 d: Option<Detection>, e: Option<Detection>, f: Option<Detection>, text: string)
    requires a.Some?
    ensures FirstMatch(Six(a, b, c, d, e, f), text) == a.value
  {
  }

  /** A second result that matches after a first one that does not is
      returned, whatever follows. */
  lemma SixSecond(a: Option<Detection>, b: Option<Detection>, c: Option<Detection>,
                  d: Option<Detection>, e: Option<Detection>, f: Option<Detection>, text: string)
    requires a.None? && b.Some?
    ensures FirstMatch(Six(a, b, c, d, e, f), text) == b.value
  {
    FirstMatchAt(Six(a, b, c, d, e, f), text, 1);
  }

  /** The second and third results may be swapped when the third one is
      "no match". */
  lemma SixSwap(a: Option<Detection>, b: Option<Detection>, c: Option<Detection>,
                d: Option<Detection>, e: Option<Detection>, f: Option<Detection>, text: string)
    requires c.None?
    ensures FirstMatch(Six(a, b, c, d, e, f), text) == FirstMatch(Six(a, c, b, d, e, f), text)
  {
    var rest := [d, e, f];
    assert Six(a, b, c, d, e, f) == [a] + ([b, c] + rest);
    assert Six(a, c, b, d, e, f) == [a] + ([c, b] + rest);
    SwapPastNone(b, c, rest, text);
    SameTail(a, [b, c] + rest, [c, b] + rest, text);
  }

  /** Three leading "no match" results are passed over. */
  lemma SixSkipThree(a: Option<Detection>, b: Option<Detection>, c: Option<Detection>,
                     d: Option<Detection>, e: Option<Detection>, f: Option<Detection>, text: string)
    requires a.None? && b.None? && c.None?
    ensures FirstMatch(Six(a, b, c, d, e, f), text) == FirstMatch([d, e, f], text)
  {
    var rs, r1, r2 := Six(a, b, c, d, e, f), [b, c, d, e, f], [c, d, e, f];
    assert rs[1..] == r1 && r1[1..] == r2 && r2[1..] == [d, e, f];
    assert FirstMatch(rs, text) == FirstMatch(r1, text);
    assert FirstMatch(r1, text) == FirstMatch(r2, text);
  }

  /** The loop returns the match at position `k` when every earlier
      result is "no match". */
  lemma {:induction false} FirstMatchAt(rs: seq<Option<Detection>>, text: string, k: nat)
    requires k < |rs| && rs[k].Some?
    requires forall j | 0 <= j < k :: rs[j].None?
    ensures FirstMatch(rs, text) == rs[k].value
  {
    if k > 0 {
      assert rs[1..][k - 1] == rs[k];
      FirstMatchAt(rs[1..], text, k - 1);
    }
  }

  /** Priority: `detect_encoding` returns the match of the first detector,
      in the order Base64, Hex, Binary, URL, ROT13, Morse, that matches. */
  lemma Priority(text: string, k: nat)
    requires k < 6 && SourceResults(text)[k].Some?
    requires forall j | 0 <= j < k :: SourceResults(text)[j].None?
    ensures DetectEncoding(text) == SourceResults(text)[k].value
  {
    FirstMatchAt(SourceResults(text), text, k);
  }

  /** In particular a hex match wins over everything after it once Base64
      has failed: ROT13 and Morse are never consulted. */
  lemma HexWinsOverLater(text: string)
    requires DetectBase64(text).None? && DetectHex(text).Some?
    ensures DetectEncoding(text) == DetectHex(text).value
  {
    SixSecond(DetectBase64(text), DetectHex(text), DetectBinary(text),
              DetectUrl(text), DetectRot13(text), DetectMorse(text), text);
  }

  // ------------------------------------------------------ Unreachable Binary

  /** Every text the binary detector accepts is accepted by the hex detector
      too: without spaces it is a run of `0` and `1` of even length, which
      lowering and cleaning leave alone, and its hex bytes (0x00, 0x01, 0x10,
      0x11) are ASCII, hence valid UTF-8. */
  lemma BinaryImpliesHex(text: string)
    requires DetectBinary(text).Some?
    ensures DetectHex(text).Some?
  {
    DetectBinarySound(text);
    var clean := Remove(text, ' ');
    assert |clean| > 0 && |clean| % 8 == 0;
    assert forall i | 0 <= i < |clean| :: Bits.IsBit(clean[i]);
    SpacedBitsClean(text);
    DetectHexOfBits(text, clean);
  }

  /** Hex cleaning of binary digits and spaces only drops the spaces. */
  lemma SpacedBitsClean(text: string)
    requires forall i | 0 <= i < |Remove(text, ' ')| :: Bits.IsBit(Remove(text, ' ')[i])
    ensures HexClean(text) == Remove(text, ' ')
  {
    var clean := Remove(text, ' ');
    forall i | 0 <= i < |text| ensures !IsUpper(text[i]) {
      if text[i] != ' ' {
        assert text[i] in clean;
      }
    }
    assert Lower(text) == text;
    assert ':' !in clean;
  }

  /** A text whose hex cleaning is a non-empty run of binary digits of a
      length divisible by 8 is accepted by the hex detector. */
  lemma DetectHexOfBits(text: string, clean: string)
    requires HexClean(text) == clean
    requires |clean| > 0 && |clean| % 8 == 0
    requires forall i | 0 <= i < |clean| :: Bits.IsBit(clean[i])
    ensures DetectHex(text).Some?
  {
    EvenOfOctets(|clean|);
    assert forall i | 0 <= i < |clean| :: IsLowerHexDigit(clean[i]) && IsHexDigit(clean[i]);
    assert Base16.Decode(clean).Some?;
    var bytes := Base16.Decode(clean).value;
    Base16.DecodeBinaryDigits(clean);
    Utf8.DecodeAscii(bytes);
    var t := Utf8.Decode(bytes).value;
    DetectHexOfClean(text, bytes, t);
  }

  /** A multiple of 8 is even. */
  lemma EvenOfOctets(n: int)
    requires n % 8 == 0
    ensures n % 2 == 0
  {
    var k := n / 8;
    assert n == 2 * (4 * k);
  }

  /** As written, `detect_encoding` never reports Binary. */
  lemma BinaryNeverReported(text: string)
    ensures DetectEncoding(text).encoding != Binary
  {
    if DetectBase64(text).Some? {
      SixFirst(DetectBase64(text), DetectHex(text), DetectBinary(text),
               DetectUrl(text), DetectRot13(text), DetectMorse(text), text);
    } else if DetectBinary(text).Some? {
      BinaryImpliesHex(text);
      HexWinsOverLater(text);
    } else {
      SixAvoids(DetectBase64(text), DetectHex(text), DetectBinary(text),
                DetectUrl(text), DetectRot13(text), DetectMorse(text), text, Binary);
    }
  }

  /** An encoding that labels none of six results is never what the loop
      returns. */
  lemma SixAvoids(a: Option<Detection>, b: Option<Detection>, c: Option<Detection>,
                  d: Option<Detection>, e: Option<Detection>, f: Option<Detection>, text: string, x: Encoding)
    requires x != Unknown
    requires a.Some? ==> a.value.encoding != x
    requires b.Some? ==> b.value.encoding != x
    requires c.Some? ==> c.value.encoding != x
    requires d.Some? ==> d.value.encoding != x
    requires e.Some? ==> e.value.encoding != x
    requires f.Some? ==> f.value.encoding != x
    ensures FirstMatch(Six(a, b, c, d, e, f), text).encoding != x
  {
    var rs := Six(a, b, c, d, e, f);
    assert rs[0] == a && rs[1] == b && rs[2] == c && rs[3] == d && rs[4] == e && rs[5] == f;
    assert forall k | 0 <= k < |rs| :: rs[k].Some? ==> rs[k].value.encoding != x;
  }

  /** The discrepancy on the binary detector's own inputs: the digit groups
      of any readable text below code point 256 are a Binary match, yet
      `detect_encoding` reports something else for them. */
  lemma BinaryShadowed(t: string)
    requires |t| > 0
    requires forall i | 0 <= i < |t| :: t[i] as int < 256 && IsReadable(t[i])
    ensures DetectBinary(Bits.EncodeGroups(t)) == Some(Detection(Binary, t))
    ensures DetectEncoding(Bits.EncodeGroups(t)).encoding != Binary
  {
    DetectBinaryOfEncoding(t);
    BinaryNeverReported(Bits.EncodeGroups(t));
  }

  /** The detector results with Binary tried before Hex. */
  function CorrectedResults(text: string): (rs: seq<Option<Detection>>)
    ensures |rs| == 6
    ensures forall k | 0 <= k < 6 :: rs[k].Some? ==> rs[k].value.encoding == CorrectedOrder[k]
  {
    SixInOrder(DetectBase64(text), DetectBinary(text), DetectHex(text),
               DetectUrl(text), DetectRot13(text), DetectMorse(text),
               Base64, Binary, Hex, UrlEncoding, Rot13, Morse);
    Six(DetectBase64(text), DetectBinary(text), DetectHex(text),
        DetectUrl(text), DetectRot13(text), DetectMorse(text))
  }

  /** The detector order with Binary moved before Hex. */
  const CorrectedOrder: seq<Encoding> := [Base64, Binary, Hex, UrlEncoding, Rot13, Morse]

  /** `detect_encoding` with Binary tried before Hex. */
  function DetectEncodingCorrected(text: string): (r: Detection)
    ensures r.encoding == Unknown <==>
              && DetectBase64(text).None? && DetectHex(text).None? && DetectBinary(text).None?
              && DetectUrl(text).None? && DetectRot13(text).None? && DetectMorse(text).None?
    ensures r.encoding == Unknown ==> r.decoded == text
    ensures r.encoding != Unknown ==> Some(r) in CorrectedResults(text)
  {
    FirstMatchOfSix(DetectBase64(text), DetectBinary(text), DetectHex(text),
                    DetectUrl(text), DetectRot13(text), DetectMorse(text), text);
    FirstMatch(CorrectedResults(text), text)
  }

  /** With the corrected order, a binary match that is not Base64 is
      reported as Binary. */
  lemma CorrectedReportsBinary(text: string)
    requires DetectBase64(text).None? && DetectBinary(text).Some?
    ensures DetectEncodingCorrected(text) == DetectBinary(text).value
  {
    SixSecond(DetectBase64(text), DetectBinary(text), DetectHex(text),
              DetectUrl(text), DetectRot13(text), DetectMorse(text), text);
  }

  /** The correction changes nothing for texts the binary detector rejects. */
  lemma CorrectedAgreesElsewhere(text: string)
    requires DetectBinary(text).None?
    ensures DetectEncodingCorrected(text) == DetectEncoding(text)
  {
    SixSwap(DetectBase64(text), DetectHex(text), DetectBinary(text),
            DetectUrl(text), DetectRot13(text), DetectMorse(text), text);
  }

  /** Two neighbouring results may be swapped when the second one is "no
      match". */
  lemma SwapPastNone(a: Option<Detection>, b: Option<Detection>, rest: seq<Option<Detection>>, text: string)
    requires b.None?
    ensures FirstMatch([a, b] + rest, text) == FirstMatch([b, a] + rest, text)
  {
    assert ([a, b] + rest)[1..] == [b] + rest && ([b, a] + rest)[1..] == [a] + rest;
    assert ([b] + rest)[1..] == rest && ([a] + rest)[1..] == rest;
  }

  /** Result lists with the same first entry and equivalent tails give the
      same answer. */
  lemma SameTail(a: Option<Detection>, rs1: seq<Option<Detection>>, rs2: seq<Option<Detection>>, text: string)
    requires FirstMatch(rs1, text) == FirstMatch(rs2, text)
    ensures FirstMatch([a] + rs1, text) == FirstMatch([a] + rs2, text)
  {
    assert ([a] + rs1)[1..] == rs1;
    assert ([a] + rs2)[1..] == rs2;
  }
}

=== FILE: utf8.dfy ===
/** UTF-8 as defined by RFC 3629: the strict decoder Python uses for
    `bytes.decode('utf-8', errors='strict')`, the replacing decoder behind
    `errors='replace'` (one U+FFFD per maximal ill-formed subpart), and the
    encoder that is the partner of both. */
module Utf8 {
  import opened Ascii
  import opened Wrappers

  /** A continuation byte, 10xxxxxx. */
  predicate IsCont(x: byte) { 0x80 <= x <= 0xBF }

  /** What the decoder does at the head of a byte string: either one scalar
      value built from `len` bytes, or an ill-formed prefix of `len` bytes
      (the maximal subpart that could still have begun a well-formed
      sequence). */
  datatype Step = Scalar(c: char, len: nat) | Invalid(len: nat)

  /** Number of bytes RFC 3629 uses for a scalar value. */
  function ScalarLength(c: char): (n: nat)
    ensures 1 <= n <= 4
  {
    if c as int < 0x80 then 1
    else if c as int < 0x800 then 2
    else if c as int < 0x10000 then 3
    else 4
  }

  /** One step of decoding, following the table of well-formed byte
      sequences in section 4 of RFC 3629: the second byte's range depends on
      the lead byte (E0, ED, F0 and F4 are narrowed so that overlong forms,
      surrogates and values above U+10FFFF are rejected). */
  function DecodeStep(b: seq<byte>): (st: Step)
    requires |b| > 0
    ensures 1 <= st.len <= |b|
    ensures st.Scalar? ==> st.len == ScalarLength(st.c)
  {
    var b0 := b[0] as int;
    if b0 < 0x80 then Scalar(b0 as char, 1)
    else if 0xC2 <= b0 <= 0xDF then
      if |b| < 2 || !IsCont(b[1]) then Invalid(1)
      else Scalar(Combine2(b0, b[1]) as char, 2)
    else if 0xE0 <= b0 <= 0xEF then
      var lo := if b0 == 0xE0 then 0xA0 else 0x80;
      var hi := if b0 == 0xED then 0x9F else 0xBF;
      if |b| < 2 || !(lo <= b[1] <= hi) then Invalid(1)
      else if |b| < 3 || !IsCont(b[2]) then Invalid(2)
      else Scalar(Combine3(b0, b[1], b[2]) as char, 3)
    else if 0xF0 <= b0 <= 0xF4 then
      var lo := if b0 == 0xF0 then 0x90 else 0x80;
      var hi := if b0 == 0xF4 then 0x8F else 0xBF;
      if |b| < 2 || !(lo <= b[1] <= hi) then Invalid(1)
      else if |b| < 3 || !IsCont(b[2]) then Invalid(2)
      else if |b| < 4 || !IsCont(b[3]) then Invalid(3)
      else Scalar(Combine4(b0, b[1], b[2], b[3]) as char, 4)
    else Invalid(1)
  }

  /** The code point carried by a two-, three- or four-byte sequence: the
      payload bits of the lead byte followed by six bits per continuation. */
  function Combine2(b0: int, b1: int): int { (b0 - 0xC0) * 0x40 + (b1 - 0x80) }

  function Combine3(b0: int, b1: int, b2: int): int {
    (b0 - 0xE0) * 0x1000 + (b1 - 0x80) * 0x40 + (b2 - 0x80)
  }

  function Combine4(b0: int, b1: int, b2: int, b3: int): int {
    (b0 - 0xF0) * 0x40000 + (b1 - 0x80) * 0x1000 + (b2 - 0x80) * 0x40 + (b3 - 0x80)
  }

  /** Strict decoding: the text, or None as soon as any ill-formed
      sequence appears (Python raises UnicodeDecodeError). */
  function Decode(b: seq<byte>): (r: Option<string>)
    ensures r.Some? ==> |r.value| <= |b|
    decreases |b|
  {
    if |b| == 0 then Some([])
    else
      match DecodeStep(b)
      case Invalid(_) => None
      case Scalar(c, n) =>
        match Decode(b[n..])
        case None => None
        case Some(t) => Some([c] + t)
  }

  /** U+FFFD, what `errors='replace'` puts in place of an ill-formed part. */
  const Replacement: char := '�'

  /** Replacing decoding: every maximal ill-formed subpart becomes one
      U+FFFD and decoding carries on after it. */
  function DecodeLossy(b: seq<byte>): (r: string)
    ensures |r| <= |b|
    decreases |b|
  {
    if |b| == 0 then []
    else
      match DecodeStep(b)
      case Invalid(n) => [Replacement] + DecodeLossy(b[n..])
      case Scalar(c, n) => [c] + DecodeLossy(b[n..])
  }

  /** The RFC 3629 byte sequence of one scalar value: the payload is cut
      into 6-bit pieces from the low end, one per continuation byte. */
  function EncodeScalar(c: char): (b: seq<byte>)
    ensures |b| == ScalarLength(c)
  {
    var cp := c as int;
    var q1 := cp / 0x40;
    var q2 := q1 / 0x40;
    var q3 := q2 / 0x40;
    if cp < 0x80 then [cp]
    else if cp < 0x800 then [0xC0 + q1, 0x80 + cp % 0x40]
    else if cp < 0x10000 then [0xE0 + q2, 0x80 + q1 % 0x40, 0x80 + cp % 0x40]
    else [0xF0 + q3, 0x80 + q2 % 0x40, 0x80 + q1 % 0x40, 0x80 + cp % 0x40]
  }

  /** `str.encode('utf-8')`. */
  function Encode(s: string): (b: seq<byte>)
    ensures |s| <= |b| <= 4 * |s|
  {
    if |s| == 0 then [] else EncodeScalar(s[0]) + Encode(s[1..])
  }

  /** The decoder reads back exactly the scalar value the encoder wrote,
      whatever follows it. */
  lemma StepOfEncodeScalar(c: char, rest: seq<byte>)
    ensures DecodeStep(EncodeScalar(c) + rest) == Scalar(c, ScalarLength(c))
  {
    var cp := c as int;
    var b := EncodeScalar(c) + rest;
    if cp < 0x80 {
    } else if cp < 0x800 {
      assert Combine2(b[0], b[1]) == cp;
    } else if cp < 0x10000 {
      StepOfThreeBytes(c, rest);
    } else {
      StepOfFourBytes(c, rest);
    }
  }

  lemma StepOfThreeBytes(c: char, rest: seq<byte>)
    requires 0x800 <= c as int < 0x10000
    ensures DecodeStep(EncodeScalar(c) + rest) == Scalar(c, 3)
  {
    var cp := c as int;
    var b := EncodeScalar(c) + rest;
    var q1, z := cp / 0x40, cp % 0x40;
    var x, y := q1 / 0x40, q1 % 0x40;
    assert cp == q1 * 0x40 + z && q1 == x * 0x40 + y;
    assert b[0] == 0xE0 + x && b[1] == 0x80 + y && b[2] == 0x80 + z;
    assert cp == x * 0x1000 + y * 0x40 + z;
    assert x == 0 ==> y >= 0x20;
    assert x == 0xD ==> y < 0x20;
  }

  lemma StepOfFourBytes(c: char, rest: seq<byte>)
    requires 0x10000 <= c as int
    ensures DecodeStep(EncodeScalar(c) + rest) == Scalar(c, 4)
  {
    var cp := c as int;
    var b := EncodeScalar(c) + rest;
    var q1, z := cp / 0x40, cp % 0x40;
    var q2, y := q1 / 0x40, q1 % 0x40;
    var w, x := q2 / 0x40, q2 % 0x40;
    assert cp == q1 * 0x40 + z && q1 == q2 * 0x40 + y && q2 == w * 0x40 + x;
    assert b[0] == 0xF0 + w && b[1] == 0x80 + x && b[2] == 0x80 + y && b[3] == 0x80 + z;
    assert cp == w * 0x40000 + x * 0x1000 + y * 0x40 + z;
    assert w <= 4;
    assert w == 0 ==> x >= 0x10;
    assert w == 4 ==> x < 0x10;
  }

  /** Every scalar value the decoder accepts is written back by the encoder
      as the very bytes it was read from: there is one encoding per value. */
  lemma EncodeScalarOfStep(b: seq<byte>)
    requires |b| > 0 && DecodeStep(b).Scalar?
    ensures EncodeScalar(DecodeStep(b).c) == b[..DecodeStep(b).len]
  {
    var st := DecodeStep(b);
    if st.len == 2 {
      SplitTwo(b[0], b[1]);
    } else if st.len == 3 {
      SplitThree(b[0], b[1], b[2]);
    } else if st.len == 4 {
      SplitFour(b[0], b[1], b[2], b[3]);
    }
  }

  /** Cutting off the low six bits of `a * 64 + r`. */
  lemma Split64(a: int, r: int)
    requires 0 <= r < 0x40
    ensures (a * 0x40 + r) / 0x40 == a
    ensures (a * 0x40 + r) % 0x40 == r
  {
  }

  lemma SplitTwo(b0: int, b1: int)
    requires 0xC0 <= b0 && 0x80 <= b1 <= 0xBF
    ensures Combine2(b0, b1) / 0x40 == b0 - 0xC0
    ensures Combine2(b0, b1) % 0x40 == b1 - 0x80
  {
    Split64(b0 - 0xC0, b1 - 0x80);
  }

  lemma SplitThree(b0: int, b1: int, b2: int)
    requires 0xE0 <= b0 && 0x80 <= b1 <= 0xBF && 0x80 <= b2 <= 0xBF
    ensures Combine3(b0, b1, b2) / 0x40 / 0x40 == b0 - 0xE0
    ensures Combine3(b0, b1, b2) / 0x40 % 0x40 == b1 - 0x80
    ensures Combine3(b0, b1, b2) % 0x40 == b2 - 0x80
  {
    var q1 := (b0 - 0xE0) * 0x40 + (b1 - 0x80);
    assert Combine3(b0, b1, b2) == q1 * 0x40 + (b2 - 0x80);
    Split64(q1, b2 - 0x80);
    Split64(b0 - 0xE0, b1 - 0x80);
  }

  lemma SplitFour(b0: int, b1: int, b2: int, b3: int)
    requires 0xF0 <= b0 && 0x80 <= b1 <= 0xBF && 0x80 <= b2 <= 0xBF && 0x80 <= b3 <= 0xBF
    ensures Combine4(b0, b1, b2, b3) / 0x40 / 0x40 / 0x40 == b0 - 0xF0
    ensures Combine4(b0, b1, b2, b3) / 0x40 / 0x40 % 0x40 == b1 - 0x80
    ensures Combine4(b0, b1, b2, b3) / 0x40 % 0x40 == b2 - 0x80
    ensures Combine4(b0, b1, b2, b3) % 0x40 == b3 - 0x80
  {
    var q2 := (b0 - 0xF0) * 0x40 + (b1 - 0x80);
    var q1 := q2 * 0x40 + (b2 - 0x80);
    assert Combine4(b0, b1, b2, b3) == q1 * 0x40 + (b3 - 0x80);
    Split64(q1, b3 - 0x80);
    Split64(q2, b2 - 0x80);
    Split64(b0 - 0xF0, b1 - 0x80);
  }

  /** Round trip: decoding the encoding of any text gives the text back. */
  lemma {:induction false} DecodeEncode(s: string)
    ensures Decode(Encode(s)) == Some(s)
  {
    if |s| > 0 {
      var head := EncodeScalar(s[0]);
      var rest := Encode(s[1..]);
      StepOfEncodeScalar(s[0], rest);
      assert (head + rest)[|head|..] == rest;
      assert s == [s[0]] + s[1..];
      DecodeEncode(s[1..]);
    }
  }

  /** Round trip the other way: a byte string that decodes strictly is the
      encoding of what it decodes to. */
  lemma {:induction false} EncodeDecode(b: seq<byte>)
    requires Decode(b).Some?
    ensures Encode(Decode(b).value) == b
    decreases |b|
  {
    if |b| > 0 {
      var n := DecodeStep(b).len;
      DecodeCons(b);
      EncodeScalarOfStep(b);
      EncodeDecode(b[n..]);
      EncodeJoin(b, DecodeStep(b).c, n, Decode(b[n..]).value);
    }
  }

  /** Putting the two halves of an encoding back together. */
  lemma EncodeJoin(b: seq<byte>, c: char, n: nat, rest: string)
    requires n <= |b|
    requires EncodeScalar(c) == b[..n] && Encode(rest) == b[n..]
    ensures Encode([c] + rest) == b
  {
    EncodeCons(c, rest);
    assert b == b[..n] + b[n..];
  }

  /** A successful decode is the first scalar value followed by the decode
      of what comes after it. */
  lemma DecodeCons(b: seq<byte>)
    requires |b| > 0 && Decode(b).Some?
    ensures DecodeStep(b).Scalar? && Decode(b[DecodeStep(b).len..]).Some?
    ensures Decode(b).value == [DecodeStep(b).c] + Decode(b[DecodeStep(b).len..]).value
  {
  }

  /** Encoding is per character. */
  lemma EncodeCons(c: char, s: string)
    ensures Encode([c] + s) == EncodeScalar(c) + Encode(s)
  {
    assert ([c] + s)[1..] == s;
  }

  /** On well-formed input the replacing decoder never replaces anything. */
  lemma {:induction false} LossyAgreesWhenValid(b: seq<byte>)
    requires Decode(b).Some?
    ensures DecodeLossy(b) == Decode(b).value
    decreases |b|
  {
    if |b| > 0 {
      LossyAgreesWhenValid(b[DecodeStep(b).len..]);
    }
  }

  /** Bytes below 0x80 decode one-for-one to the characters with those
      code points. */
  lemma {:induction false} DecodeAscii(b: seq<byte>)
    requires forall i | 0 <= i < |b| :: b[i] < 0x80
    ensures Decode(b).Some?
    ensures |Decode(b).value| == |b|
    ensures forall i | 0 <= i < |b| :: Decode(b).value[i] as int == b[i]
    decreases |b|
  {
    if |b| > 0 {
      DecodeAscii(b[1..]);
    }
  }
}

=== FILE: wrappers.dfy ===
/** The optional result every detector returns: `None` is Python's `None`
    ("no match"), `Some(v)` carries the match. */
module Wrappers {

  datatype Option<+T> = None | Some(value: T)
}
